=== FILE: README.md ===
# Hydrogen drum kit converter — a Dafny model

`kit_converter.py` turns one long recording of a virtual instrument into a
Hydrogen drum kit. The recording holds one note per velocity layer per
instrument, and the YAML kit configuration describes those instruments.

- `create_kit` cuts every layer out of the recording and names its file.
- It also gives each layer a velocity range and writes the `drumkit.xml` manifest.
- It then bundles everything into a `.h2drumkit` archive.
- `create_midi` writes the MIDI preview track. A synthesiser plays that track to make the recording.

This project models both pipelines as pure functions over the parsed
configuration, and proves what they compute:

- **Decimal** (`decimal.dfy`): `str()` of integers and the `{:02}` zero padding, each with its parser.
- **Attributes** (`attributes.dfy`): the attribute dictionaries, as association lists that keep Python's insertion order. It also holds the "defaults updated by overrides" merge.
- **KitConfig** (`kit_config.dfy`): the parsed configuration, `cfg.get(key, '')` and `os.path.join`.
- **VelocityRanges** (`velocity_ranges.dfy`): the per-layer `[min, max)` ranges and the six-decimal rendering of `threshold/127`. It includes the first minimum, which is the literal text `"0"`.
- **Filenames** (`filenames.dfy`): `<name>_L<id:02>.flac`.
- **Timeline** (`timeline.dfy`): the note length `ceil(length/250)*250`, the base offset of each instrument and the window of each layer.
- **Manifest** (`manifest.dfy`): the manifest content, the XML element tree built by `_add_tag` and `_set_instrument_attr`, and a reader for that tree.
- **Staging** (`staging.dfy`): `os.makedirs(os.path.join(TMP.name, kit_code))` on the fresh temporary directory. It covers the path's segments, `posixpath.split` as makedirs applies it, POSIX lookup of `.` and `..`, and `os.mkdir`.
- **KitPackaging** (`kit_packaging.dfy`): `create_kit` as a whole. This covers the error cases, the ordered list of trimming requests the program hands to ffmpeg, the manifest and the archive's members. It also holds the program's own nested loops as methods.
- **MidiPreview** (`midi_preview.dfy`): `create_midi`'s event list.
- **Wrappers** (`wrappers.dfy`): `Option` and `Result`.

The model performs no I/O. ffmpeg is modelled as a list of requests, and
whether each request wrote its file is a parameter (`written`). The program
never checks the tool's exit status.

Behaviours of the program that the model keeps, and that are easy to miss:

- **Event order in the MIDI preview.** An instrument's marker comes after its first note_on (lines 53-57).
- **Closing events.** A closing note_off of the last instrument's note, at the last rest plus 24 ticks, comes before the "End" marker (lines 61-64).
- **Base offsets.** With non-negative sample lengths they never decrease, but they need not increase. An instrument with no layers, or with a sample length of 0, takes no room on the timeline (line 138), and `Timeline.BaseOffsetAdvances` states exactly when the offset moves forward. A negative length gives a negative note length (`ceil(-300/250)*250` is -250), so the next offset is smaller. The monotonicity lemmas therefore require non-negative lengths.
- **License key.** The manifest's license is read from the key `lincense` (line 81), so a configuration that spells `license` correctly gets an empty license.
- **Kit codes naming an existing directory.** The staging path (line 72) lies in a fresh, empty temporary directory, and `os.makedirs` (line 73) raises FileExistsError when its final mkdir finds the directory already there. That happens for `""`, `"."`, `".."`, `"./"`, `"../"`, `"./."`, `"../."`, and for `"n/.."`, `"n/m/.."` and `"n/../n"` after makedirs has made the names before the `..`. It does not happen for `"n/."` or `"n/../."`: makedirs makes the head and returns without a final mkdir when the last segment is `.`. Relative codes made only of plain names always succeed.

## Model

| member | source | states |
|---|---|---|
| Decimal.NatToString | kit_converter.py:96 | `str(idx)` is a canonical digit string (no leading zero) that reads back as `idx` |
| Decimal.CanonicalIsNatToString | kit_converter.py:96 | the converse: every canonical digit string is the rendering of the number it reads as, so the rendering is a bijection onto canonical strings |
| Decimal.IntToString | kit_converter.py:98 | `str(note)` parses back to the note. It is canonical digits for a non-negative note, and `-` followed by canonical digits for a negative one, which fixes the text |
| Decimal.ZeroPad | kit_converter.py:116 | `{layer_id:02}` is all digits and reads back as the layer id. It is exactly `str(id)` once that is two digits or longer, and otherwise `str(id)` padded with zeros to width 2 |
| Attributes.Merge | kit_converter.py:99-100 | `defaults.copy().update(attributes)` has exactly the keys of both, with no duplicates. An overridden key takes the override's value and any other key keeps its default. The defaults keep their positions, and the keys only the overrides hold follow in the overrides' order |
| Attributes.MergeIsMapOverride | kit_converter.py:99-100 | viewed as a map, the merge equals the defaults overridden by the instrument's attributes |
| KitConfig.TextOf | kit_converter.py:78-81 | `cfg.get(key, '')` for the kit's text entries. `KitPackaging.BuildManifest` states which entry each manifest field takes, and `KitPackaging.LicenseReadsMisspeltKey` states that the license follows only `lincense` |
| KitConfig.KitDisplay | kit_converter.py:90-91 | `instrument.get('display', name)`. `KitPackaging.BuildManifest` states that each instrument's name element is its display, or its name when there is none |
| KitConfig.JoinPath | kit_converter.py:141 | `os.path.join(dir, file)`: the file itself when it is absolute, else dir and file joined by `/`. `KitPackaging.CreateKit` states the archive path it gives for both kinds of kit code (line 141) |
| VelocityRanges.LayerRanges | kit_converter.py:105-109 | one range per threshold. Range i's maximum is threshold i over 127, the first minimum is the literal `"0"`, and each later minimum is the previous maximum |
| VelocityRanges.RangesPartition | kit_converter.py:105-109 | for ascending, non-negative thresholds, a velocity selects some layer exactly when it lies in [0, last/127), and it never selects two layers |
| VelocityRanges.RoundedMicros | kit_converter.py:105 | the millionths of t/127 rounded to the nearest integer, less than half a millionth away |
| VelocityRanges.Fixed6 | kit_converter.py:105 | the `%.6f` text of t/127 reads as a decimal within half a millionth of t/127 |
| VelocityRanges.FixedTextReads | kit_converter.py:105 | the sign, whole part and six-digit fraction of the rendered text read back as the same number of millionths |
| VelocityRanges.ZeroLiteralQuirk | kit_converter.py:105-107 | the first minimum `"0"` has the same value as a threshold of 0 but a different text from its `%.6f` rendering `"0.000000"` |
| Filenames.LayerFilename | kit_converter.py:116 | the file name is the instrument name, then `_L`, then digits that read back as the layer id, then `.flac`. The digits are exactly two when the id is below 100, and have no leading zero from 100 on |
| Filenames.TwoDigitsBelowHundred | kit_converter.py:116 | the padded id has exactly two digits if and only if the id is below 100 |
| Filenames.LayerFilenameInjective | kit_converter.py:116 | equal file names come from equal names and equal layer ids |
| Filenames.LayerFilenamesDiffer | kit_converter.py:116 | different (name, layer id) pairs get different file names |
| Timeline.Eighths | kit_converter.py:50 | `ceil(length/250)` is the least multiple count q with length <= 250·q |
| Timeline.NoteLength | kit_converter.py:111 | the note length is a multiple of 250, at least the sample length and less than 250 ms longer |
| Timeline.BaseOffsets | kit_converter.py:138 | one offset per instrument. The first is 0, and each next one adds the previous instrument's note length times its layer count |
| Timeline.BaseOffsetIsPrefixSum | kit_converter.py:138 | instrument k's base offset is the total footprint of the instruments before it |
| Timeline.BaseOffsetsNondecreasing | kit_converter.py:138 | with non-negative lengths, base offsets never decrease along the instrument list |
| Timeline.BaseOffsetAdvances | kit_converter.py:138 | the next base offset is strictly larger if and only if the instrument has a positive length and at least one layer |
| Timeline.LayerWindows | kit_converter.py:126 | with a non-negative length, every layer's window, the only layer's included, lies inside its instrument's footprint, and a window ends before any later layer's window starts |
| Staging.Segments | kit_converter.py:72 | the staging path's segments below the temporary directory: at least one, none containing `/` |
| Staging.SegmentsJoin | kit_converter.py:72 | joining the segments with `/` gives back the kit code |
| Staging.JoinSegmentsSplits | kit_converter.py:72 | the converse: splitting slash-free pieces joined with `/` gives back the pieces |
| Staging.HeadTail | kit_converter.py:73 | the split makedirs recurses on: a shorter head with no trailing slash, and a tail that is the last component (an empty tail only when the path has no components) |
| Staging.Mkdir | kit_converter.py:73 | `os.mkdir`, the last step of makedirs: FileExistsError when the path has no components, ends in `.` or `..`, or names an existing directory. FileNotFoundError when the parent is missing. The outcome is undetermined when the lookup passes a named entry outside the temporary directory. Otherwise exactly the new directory is added. `Staging.MkdirEstablishes` states its outcomes |
| Staging.MkdirEstablishes | kit_converter.py:73 | mkdir raises FileNotFoundError only when the parent's lookup finds a missing name. When it succeeds or raises FileExistsError, no directory has gone and the path names an existing directory |
| Staging.MakeDirs | kit_converter.py:73 | `os.makedirs` without `exist_ok`: a missing head is made first and its FileExistsError ignored, a tail `.` returns after the head, and the leaf is made with mkdir. `Staging.MakeDirsEstablishes` and `Staging.PlainMakeDirs` state its outcomes |
| Staging.PlainMakeDirs | kit_converter.py:73 | makedirs of a missing path of plain names, in a tree where every directory's parent exists, adds exactly the directories along the path |
| Staging.Stage | kit_converter.py:71-73 | makedirs of `os.path.join(TMP.name, kit_code)` in a fresh, empty temporary directory, starting from the root for an absolute code. The Staging lemmas below state which codes fail, which succeed and which depend on the outside file system |
| Staging.MakeDirsEstablishes | kit_converter.py:73 | makedirs never raises FileNotFoundError here. When it returns or raises FileExistsError, no directory has gone and the path now names an existing directory |
| Staging.PlainCodeStages | kit_converter.py:71-73 | a relative kit code none of whose segments is `.` or `..` is staged without error, and exactly the directories along it are made |
| Staging.TrailingParentNeverStages | kit_converter.py:73 | a path whose last component is `..` never makes a new directory: makedirs raises or depends on what lies outside |
| Staging.StagedCodeNonEmpty | kit_converter.py:72-73 | a kit code whose staging succeeds is not empty |
| Staging.EmptyCodeFails | kit_converter.py:72-73 | the empty kit code names the temporary directory itself, so makedirs raises |
| Staging.DotCodesFail | kit_converter.py:72-73 | `.` and `..`, with or without a trailing slash, name existing directories, so makedirs raises |
| Staging.DotSlashDotFails | kit_converter.py:72-73 | `./.` and `../.` end in a `.` inside an existing directory, so makedirs raises |
| Staging.NamedCodeExamples | kit_converter.py:72-73 | for plain names n and m: `n/..` and `n/m/..` fail, `n/.` and `n/../.` succeed, `n/../m` succeeds exactly when m differs from n, and `../n` depends on what exists beside the temporary directory |
| Manifest.Leaf | kit_converter.py:154-157 | `_add_tag`: a child element holding only text. The round-trip lemmas below read every such child back |
| Manifest.AttributeXml | kit_converter.py:149-151 | `_set_instrument_attr`: one element per attribute, named after its key, in dict order. `Manifest.AttributeCountStopsAtLayers` states that the reader recovers them |
| Manifest.LayerXml | kit_converter.py:119-124 | one `layer` element with filename, min, max, gain and pitch. `Manifest.LayersRoundTrip` reads it back |
| Manifest.LayersXml | kit_converter.py:113-124 | the layer elements in layer order. `Manifest.LayersRoundTrip` reads them back |
| Manifest.InstrumentXml | kit_converter.py:95-124 | one `instrument` element: id, name, midiOutNote, then the attributes, then the layers. `Manifest.InstrumentRoundTrip` reads it back |
| Manifest.InstrumentsXml | kit_converter.py:84-124 | the instrument elements in declared order. `Manifest.InstrumentsRoundTrip` reads them back |
| Manifest.ManifestXml | kit_converter.py:77-124 | the `drumkit_info` tree: name, author, info, license, then `instrumentList`. `Manifest.ManifestRoundTrip` reads it back |
| Manifest.LayersRoundTrip | kit_converter.py:119-124 | reading back the layer elements gives the layer entries they were written from |
| Manifest.AttributeCountStopsAtLayers | kit_converter.py:149-151 | the attribute elements written by `_set_instrument_attr` are recognised up to the first `layer` element, provided no attribute is itself named `layer` |
| Manifest.InstrumentRoundTrip | kit_converter.py:95-101 | an instrument element (id, name, midiOutNote, attributes, layers) reads back as the entry it was written from |
| Manifest.InstrumentsRoundTrip | kit_converter.py:89-101 | the instrument list reads back in the same order |
| Manifest.ManifestRoundTrip | kit_converter.py:77-84 | the whole `drumkit_info` tree reads back as the manifest it was written from, when no attribute is named `layer` |
| KitPackaging.PlanLayers | kit_converter.py:104-126 | one plan per layer of an instrument, holding its file name, its velocity range and its window. `KitPackaging.LayerTiming` states the windows |
| KitPackaging.PlanKit | kit_converter.py:86-138 | one plan list per instrument, each from its base offset. `KitPackaging.LayerTiming` and `KitPackaging.ExtractionsDoNotOverlap` state its timing |
| KitPackaging.LayerExtractions | kit_converter.py:113-137 | one trimming request per planned layer, in layer order |
| KitPackaging.Extractions | kit_converter.py:86-138 | the trimming requests in the order the nested loops issue them. `KitPackaging.IssueExtractions` connects it to the loops, and `KitPackaging.ExtractedFilesAreManifestFiles` to the manifest |
| KitPackaging.LayerTiming | kit_converter.py:126 | layer l of instrument k starts at the instruments-before-k footprint plus l note lengths and lasts the exact sample length. Consecutive layers start one note length apart |
| KitPackaging.BuildManifest | kit_converter.py:77-124 | the kit name, author and info come from `kit_name`, `author` and `info`, and the license from `lincense`, each empty when absent. Instruments appear in declared order. Each has its position as id, its display name (or its name when there is none), its note and one layer entry per threshold. Every layer entry has gain `1`, pitch `0` and the layer's file name. The first minimum is `"0"`, each later minimum repeats the previous maximum, and each maximum is the six-decimal number nearest to threshold/127 |
| KitPackaging.LicenseReadsMisspeltKey | kit_converter.py:81 | the license is the `lincense` entry, or empty without one, and adding or changing a `license` entry leaves it unchanged |
| KitPackaging.ManifestAttributes | kit_converter.py:99-101 | an instrument's attribute elements carry the union of default and own keys. A key's value comes from the instrument when present, else from the defaults. The default keys come first in their own order, then the instrument's new keys in the order it lists them |
| KitPackaging.CreateKit | kit_converter.py:69-146 | fails on a missing kit code, then on a code for which `os.makedirs` of the staging path raises, then on a missing instrument list. Otherwise it succeeds, and the code is not empty. On success it makes one trimming request per layer, and every request reads `media/<kit_code>.wav`. The archive root is the kit code and the archive path is `kits/<kit_code>.h2drumkit`. When no attribute is named `layer`, the written manifest tree reads back as the built manifest |
| KitPackaging.Package | kit_converter.py:74-146 | the package of a non-empty kit code: root and archive path from the code, one request per layer, each reading `media/<kit_code>.wav`, and a manifest tree that reads back as the built manifest when no attribute is named `layer` |
| KitPackaging.KitExtractions | kit_converter.py:86-137 | the whole kit issues one request per layer, and each reads the kit's recording |
| KitPackaging.ExtractionsCount | kit_converter.py:113-137 | the requests for the first k instruments number the layers of those instruments |
| KitPackaging.ExtractionsSource | kit_converter.py:132 | every request reads the same source recording |
| KitPackaging.ExtractionsDoNotOverlap | kit_converter.py:126-138 | with non-negative lengths, in request order each window ends before the next starts, and all windows lie in [0, total footprint) |
| KitPackaging.ExtractedFilesAreManifestFiles | kit_converter.py:116-135 | the requests write exactly the layer files the manifest lists, in the same order |
| KitPackaging.DestinationsDistinct | kit_converter.py:116-117 | with distinct instrument names no two requests write the same file |
| KitPackaging.ArchiveMembers | kit_converter.py:144-145 | the archive's member paths under the kit code: the root, `drumkit.xml`, and the file of every request that wrote one. `KitPackaging.ArchiveWhenAllWritten` and `KitPackaging.ArchiveLacksUnwritten` state them |
| KitPackaging.ArchiveWhenAllWritten | kit_converter.py:144-145 | when every request wrote its file, the archive holds exactly the root directory, `drumkit.xml` and one file per manifest layer |
| KitPackaging.ArchiveLacksUnwritten | kit_converter.py:137-145 | a request that wrote nothing has no archive member, when destinations are distinct |
| KitPackaging.FailedExtractionLeavesDanglingEntry | kit_converter.py:119-145 | with distinct instrument names: since the exit status is ignored, a layer whose extraction failed is still listed in the manifest but missing from the archive |
| KitPackaging.IssueLayerExtractions | kit_converter.py:113-137 | the inner loop issues exactly the requests planned for one instrument's layers |
| KitPackaging.IssueExtractions | kit_converter.py:86-138 | the nested loops with their running `start_offset` issue exactly the planned requests, and the offset ends at the total footprint |
| MidiPreview.LayerBlock | kit_converter.py:53-59 | one layer's events: note_on, the display marker on the first layer only, and a 24-tick note_off. `MidiPreview.MarkerFollowsFirstNoteOn` states the first layer's events |
| MidiPreview.LayerEvents | kit_converter.py:52-60 | the inner loop from layer l on. `MidiPreview.LayerEventsAreStrikes`, `MidiPreview.LayerNoteOns` and `MidiPreview.LayerNoteOffs` state its events |
| MidiPreview.BodyEvents | kit_converter.py:46-60 | the outer loop, threading `start_offset` between instruments. `MidiPreview.BodyIsStrikes` and `MidiPreview.BodyContent` state its events |
| MidiPreview.CreateMidi | kit_converter.py:39-66 | fails exactly when there is no instrument, because `note` is then unbound. Otherwise the track has 48 ticks per beat, opens with 4/4 and 120 BPM, and closes with a note_off of the last instrument's note followed by the `End` marker |
| MidiPreview.MidiTrackContent | kit_converter.py:46-64 | the track's note_ons are exactly one per (instrument, layer) in order, at the layer's velocity on channel 9. The first comes at time 0 and each later one after the previous layer's rest. There is one 24-tick note_off per layer plus the closing one, one display marker per instrument with layers, then `End`. The closing note_off comes 24 ticks after the last rest. The track length is 4 + 2·layers + markers |
| MidiPreview.BodyContent | kit_converter.py:46-60 | the same projections for the instrument loop alone, and the final `start_offset` is the last layer's rest (or the incoming time when no layer exists) |
| MidiPreview.LayerNoteOns | kit_converter.py:52-60 | one instrument's note_ons from layer l on: the layer velocities in order, the first at the incoming time and each later one after `(eigths - 1) * 24` |
| MidiPreview.LayerNoteOffs | kit_converter.py:58 | one 24-tick note_off per remaining layer |
| MidiPreview.LayerMarkersAndLength | kit_converter.py:55-57 | an instrument contributes one display marker, and only when it has layers. It emits two events per layer plus that marker |
| MidiPreview.MidiTrackOrder | kit_converter.py:39-64 | the whole track in order: the header, then one strike per (instrument, layer) in declared order, then the closing note_off 24 ticks after the last rest and `End`. Each strike is a note_on at the layer's velocity, the display marker if it is the instrument's first layer, and a 24-tick note_off. The first note_on comes at time 0 and each later one after the previous strike's rest |
| MidiPreview.BodyIsStrikes | kit_converter.py:46-60 | the nested instrument and layer loops produce the same events as one flat run of strikes over all hits, and end with `start_offset` at the last rest |
| MidiPreview.LayerEventsAreStrikes | kit_converter.py:52-60 | the layer loop of one instrument from layer l on is the run of strikes of its remaining layers |
| MidiPreview.StrikesAdjacency | kit_converter.py:53-59 | in a run of strikes, every note_on is followed by its 24-tick note_off, either directly or after one marker |
| MidiPreview.NoteOnFollowedByNoteOff | kit_converter.py:53-59 | in the track, every note_on is followed by its 24-tick note_off, either directly or after one marker |
| MidiPreview.MarkerFollowsFirstNoteOn | kit_converter.py:53-59 | an instrument's events start with note_on, then its display marker, then a 24-tick note_off |
| MidiPreview.SingleInstrumentExample | kit_converter.py:39-65 | kit `demo`, one instrument (note 36, layers 50 and 100, 300 ms) yields `media/demo.mid` with the exact nine-event track |

## Left out

- YAML loading, `main` and the argument parser (lines 22-36, 160-179): the model starts from the parsed configuration, and the choice between the two pipelines is the caller's. `generate_midi` (lines 182-183) only logs.
- Logging (lines 15-16, 32, 35, 48, 92) has no effect on the results.
- Running ffmpeg (line 137): each call becomes an `Extraction` request. The audio work itself is the tool's, and its success is the `written` parameter.
- The `-ss` and `-t` arguments are rendered as float seconds (lines 130-131). The model keeps integer milliseconds and does not model float division or formatting.
- VelocityRanges.Fixed6: modelled as exact rounding of t/127 to six decimals. Python rounds the double nearest to t/127. A ratio with denominator 127 is never a rounding midpoint: it stays at least 1/(254·10^6) away from one. For thresholds of velocity size, the double's error is far smaller than that gap, so the two texts agree. The contract states only the value the text reads as, not its exact characters for negative or very large thresholds.
- `tempfile`, `os.makedirs`, `posixpath.split` and `os.mkdir` belong to Python and the operating system, not to the repository. Staging models them from their documented behaviour: a fresh, empty temporary directory with no symbolic links, ignoring permissions and the directory's removal. Writing `drumkit.xml`, removing an existing archive and the tar format (lines 140-146) are left out. The archive is described by its set of member paths.
- XML serialisation is left out: the manifest is an element tree of tag, text and children, and the bytes `ElementTree` writes (declaration, escaping) are not modelled.
- The MIDI file encoding by `mido`, `bpm2tempo`, and mido's checks that note and velocity lie in 0-127 (lines 40-66) are left out. Tempo is kept in BPM, and an out-of-range value that mido would reject is not an error in the model.
- `str()` of a non-string YAML attribute value (line 151): attribute values are already text.
- A display given explicitly as YAML `null` is not modelled: `display` is either missing or a string. `create_kit` then falls back to the name, and `create_midi` puts the missing value into the marker.
- Every instrument is assumed to have a `name`, `note`, `length` and `layers` of the right type. A missing `layers` or `length` crashes both pipelines. A missing `note` does not crash `create_kit`: it writes the text `None` as midiOutNote (line 98), and `create_midi` hands `None` to mido. A missing `name` gives file names such as `None_L01.flac` (line 116) and, without a display, an empty name element. The model's instruments have no absent case for these entries.
- KitPackaging.CreateKit: a kit code whose lookup passes through a named entry outside the temporary directory, such as the absolute `/x` or the climbing `../x`, depends on the rest of the file system. Staging calls such a code undetermined, and CreateKit reports success for it, although `os.makedirs` may raise there.
- MidiPreview.CreateMidi: an explicit YAML null or a non-string value for `kit_code` is not modelled. The configuration's `kit_code` is either absent or text. A null makes `cfg.get('kit_code', 'default')` return None, and a number such as `808` is not text, so both raise TypeError at line 65 (and at line 72 in `create_kit`). The model instead takes `default` for a null and has no number case.
- `default_attributes` and an instrument's `attributes` are either absent or mappings with text values. An explicit null raises at `defaults.copy()` (line 99) or at `update(None)` (line 100). The model treats null like absence, as an empty mapping.
- KitPackaging.ArchiveWhenAllWritten: layer files are assumed to stay inside the staging directory. `ArchiveMembers` places every written file at `<kit_code>/<file>`. An instrument name that is absolute or climbs with `..` makes `os.path.join(BASE, flac_kit_file)` (line 117) point outside BASE. Such a file is then not archived by `tar.add(BASE)` (line 145), yet the model counts it as a member. A relative name whose directory part does not exist, such as `a/b`, makes its request write nothing, which `written` already covers.
- Timeline.Eighths: computed exactly on integers. Python computes `length / 250` as a float, which gives the same ceiling for every length the configuration can realistically hold.
- Saving the MIDI file (line 66) is left out. The output path `media/<kit_code or "default">.mid` is computed.

=== FILE: attributes.dfy ===
/**
 * Instrument attribute sets. A Python dict is modelled as an association
 * list with distinct keys, so that the insertion order that decides the
 * order of the attribute elements in the manifest is kept.
 */
module Attributes {
  import opened Wrappers

  type Entry = (string, string)

  function Keys(a: seq<Entry>): (ks: seq<string>)
    ensures |ks| == |a| && forall i :: 0 <= i < |a| ==> ks[i] == a[i].0
  {
    seq(|a|, i requires 0 <= i < |a| => a[i].0)
  }

  predicate DistinctKeys(a: seq<Entry>) {
    forall i, j :: 0 <= i < j < |a| ==> a[i].0 != a[j].0
  }

  /** A dict: no key occurs twice. */
  type Dict = a: seq<Entry> | DistinctKeys(a) witness []

  /** `d.get(k)`: the value of the first entry with key `k`. */
  function Lookup(a: seq<Entry>, k: string): Option<string> {
    if |a| == 0 then None
    else if a[0].0 == k then Some(a[0].1)
    else Lookup(a[1..], k)
  }

  /** The position of the first entry with key `k`, or `|a|` when there is none. */
  function KeyIndex(a: seq<Entry>, k: string): (i: nat)
    ensures i <= |a|
    ensures i < |a| ==> a[i].0 == k
    ensures forall j :: 0 <= j < i ==> a[j].0 != k
  {
    if |a| == 0 then 0
    else if a[0].0 == k then 0
    else 1 + KeyIndex(a[1..], k)
  }

  lemma {:induction false} LookupPresent(a: seq<Entry>, k: string)
    ensures Lookup(a, k).Some? <==> k in Keys(a)
  {
    if |a| > 0 {
      LookupPresent(a[1..], k);
      assert Keys(a) == [a[0].0] + Keys(a[1..]);
    }
  }

  /** In a dict, the lookup of an entry's key yields that entry's value. */
  lemma {:induction false} LookupAt(a: Dict, i: nat)
    requires i < |a|
    ensures Lookup(a, a[i].0) == Some(a[i].1)
  {
    if i > 0 {
      var t: Dict := a[1..];
      LookupAt(t, i - 1);
    }
  }

  lemma {:induction false} LookupConcat(a: seq<Entry>, b: seq<Entry>, k: string)
    ensures Lookup(a + b, k) == if k in Keys(a) then Lookup(a, k) else Lookup(b, k)
  {
    if |a| > 0 {
      assert (a + b)[1..] == a[1..] + b;
      assert Keys(a) == [a[0].0] + Keys(a[1..]);
      LookupConcat(a[1..], b, k);
    } else {
      assert a + b == b;
    }
  }

  /** The defaults with the value of every key that the overrides also hold replaced in place. */
  function Overlay(defaults: seq<Entry>, overrides: seq<Entry>): (r: seq<Entry>)
    ensures |r| == |defaults|
    ensures forall i :: 0 <= i < |r| ==>
      r[i].0 == defaults[i].0 && r[i].1 == Lookup(overrides, defaults[i].0).GetOr(defaults[i].1)
  {
    seq(|defaults|, i requires 0 <= i < |defaults| =>
      (defaults[i].0, Lookup(overrides, defaults[i].0).GetOr(defaults[i].1)))
  }

  /** The override entries whose key the defaults lack, in the overrides' order. */
  function Additions(overrides: Dict, defaults: seq<Entry>): (r: Dict)
    ensures forall e :: e in r <==> e in overrides && e.0 !in Keys(defaults)
  {
    if |overrides| == 0 then []
    else
      var rest: Dict := overrides[1..];
      var tail := Additions(rest, defaults);
      if overrides[0].0 in Keys(defaults) then tail
      else
        assert forall e :: e in tail ==> e.0 != overrides[0].0 by {
          forall e | e in tail ensures e.0 != overrides[0].0 {
            var j :| 0 <= j < |rest| && rest[j] == e;
            assert overrides[j + 1] == e;
          }
        }
        [overrides[0]] + tail
  }

  /** Past the first override, the first position of a later override's key is one further on. */
  lemma KeyIndexAfterFirst(overrides: Dict, k: string)
    requires |overrides| > 0 && k in Keys(overrides[1..])
    ensures KeyIndex(overrides, k) == 1 + KeyIndex(overrides[1..], k)
  {
    var j :| 0 <= j < |overrides| - 1 && overrides[1..][j].0 == k;
    assert overrides[j + 1].0 == k;
  }

  /** From position `from` on, the entries of `r` come in the order their keys first occur in `overrides`. */
  predicate InOverrideOrder(r: seq<Entry>, overrides: seq<Entry>, from: nat) {
    forall i, j :: from <= i < j < |r| ==> KeyIndex(overrides, r[i].0) < KeyIndex(overrides, r[j].0)
  }

  /** Prepending the first override to entries ordered within the rest keeps them ordered. */
  lemma OrderedCons(overrides: Dict, tail: seq<Entry>, withHead: bool)
    requires |overrides| > 0
    requires InOverrideOrder(tail, overrides[1..], 0)
    requires forall m :: 0 <= m < |tail| ==> tail[m].0 in Keys(overrides[1..])
    ensures InOverrideOrder(if withHead then [overrides[0]] + tail else tail, overrides, 0)
  {
    var rest := overrides[1..];
    forall m | 0 <= m < |tail| ensures KeyIndex(overrides, tail[m].0) == 1 + KeyIndex(rest, tail[m].0) {
      KeyIndexAfterFirst(overrides, tail[m].0);
    }
    var r := if withHead then [overrides[0]] + tail else tail;
    var off := if withHead then 1 else 0;
    forall i, j | 0 <= i < j < |r| ensures KeyIndex(overrides, r[i].0) < KeyIndex(overrides, r[j].0) {
      assert r[j] == tail[j - off];
      if i >= off {
        assert r[i] == tail[i - off];
      }
    }
  }

  /** The added entries keep the order they have among the overrides. */
  lemma {:induction false} AdditionsOrdered(overrides: Dict, defaults: seq<Entry>)
    ensures InOverrideOrder(Additions(overrides, defaults), overrides, 0)
  {
    if |overrides| > 0 {
      var rest: Dict := overrides[1..];
      AdditionsOrdered(rest, defaults);
      var tail := Additions(rest, defaults);
      forall m | 0 <= m < |tail| ensures tail[m].0 in Keys(rest) {
        assert tail[m] in rest;
        var j :| 0 <= j < |rest| && rest[j] == tail[m];
        assert Keys(rest)[j] == tail[m].0;
      }
      OrderedCons(overrides, tail, overrides[0].0 !in Keys(defaults));
    }
  }

  /** In the merged entries, the ones after the defaults come in the overrides' order. */
  lemma MergedOrdered(defaults: Dict, overrides: Dict)
    ensures InOverrideOrder(Merged(defaults, overrides), overrides, |defaults|)
  {
    var kept := Overlay(defaults, overrides);
    var added := Additions(overrides, defaults);
    AdditionsOrdered(overrides, defaults);
    var r := kept + added;
    forall i, j | |defaults| <= i < j < |r| ensures KeyIndex(overrides, r[i].0) < KeyIndex(overrides, r[j].0) {
      assert r[i] == added[i - |defaults|] && r[j] == added[j - |defaults|];
    }
  }

  /** The merged entries: defaults overlaid in place, then the added overrides. */
  function Merged(defaults: Dict, overrides: Dict): seq<Entry> {
    Overlay(defaults, overrides) + Additions(overrides, defaults)
  }

  lemma MergedDistinct(defaults: Dict, overrides: Dict)
    ensures DistinctKeys(Merged(defaults, overrides))
  {
    var kept := Overlay(defaults, overrides);
    var added := Additions(overrides, defaults);
    var r := kept + added;
    forall i, j | 0 <= i < j < |r| ensures r[i].0 != r[j].0 {
      if j >= |kept| && i < |kept| {
        assert r[j] in added;
        assert r[i].0 == Keys(defaults)[i];
      }
    }
  }

  lemma MergedKeys(defaults: Dict, overrides: Dict, k: string)
    ensures k in Keys(Merged(defaults, overrides)) <==> k in Keys(defaults) || k in Keys(overrides)
  {
    var kept := Overlay(defaults, overrides);
    var added := Additions(overrides, defaults);
    var r := kept + added;
    assert Keys(kept) == Keys(defaults);
    assert Keys(r) == Keys(kept) + Keys(added);
    if k in Keys(overrides) && k !in Keys(defaults) {
      var j :| 0 <= j < |overrides| && overrides[j].0 == k;
      assert overrides[j] in added;
      var m :| 0 <= m < |added| && added[m] == overrides[j];
      assert Keys(added)[m] == k;
    }
    if k in Keys(added) {
      var m :| 0 <= m < |added| && added[m].0 == k;
      assert added[m] in overrides;
      var j :| 0 <= j < |overrides| && overrides[j] == added[m];
      assert Keys(overrides)[j] == k;
    }
  }

  lemma MergedLookup(defaults: Dict, overrides: Dict, k: string)
    requires DistinctKeys(Merged(defaults, overrides))
    ensures Lookup(Merged(defaults, overrides), k)
      == if k in Keys(overrides) then Lookup(overrides, k) else Lookup(defaults, k)
  {
    var kept := Overlay(defaults, overrides);
    var added := Additions(overrides, defaults);
    LookupConcat(kept, added, k);
    LookupPresent(overrides, k);
    LookupPresent(defaults, k);
    LookupPresent(added, k);
    assert Keys(kept) == Keys(defaults);
    if k in Keys(defaults) {
      var i :| 0 <= i < |defaults| && defaults[i].0 == k;
      LookupAt(defaults, i);
      var kd: Dict := kept;
      LookupAt(kd, i);
    } else if k in Keys(overrides) {
      var j :| 0 <= j < |overrides| && overrides[j].0 == k;
      LookupAt(overrides, j);
      assert overrides[j] in added;
      var m :| 0 <= m < |added| && added[m] == overrides[j];
      LookupAt(added, m);
    } else {
      forall m | 0 <= m < |added| ensures added[m].0 != k {
        assert added[m] in overrides;
        var j :| 0 <= j < |overrides| && overrides[j] == added[m];
        assert Keys(overrides)[j] == added[m].0;
      }
    }
  }

  /**
   * `merged = defaults.copy(); merged.update(overrides)`: the key set is the
   * union, an override's value wins, every other key keeps its default
   * value, default keys keep their positions, and the keys only the
   * overrides hold follow in the overrides' order.
   */
  function Merge(defaults: Dict, overrides: Dict): (r: Dict)
    ensures forall k :: k in Keys(r) <==> k in Keys(defaults) || k in Keys(overrides)
    ensures forall k :: k in Keys(overrides) ==> Lookup(r, k) == Lookup(overrides, k)
    ensures forall k :: k !in Keys(overrides) ==> Lookup(r, k) == Lookup(defaults, k)
    ensures |r| >= |defaults| && forall i :: 0 <= i < |defaults| ==> r[i].0 == defaults[i].0
    ensures forall i, j :: |defaults| <= i < j < |r| ==> KeyIndex(overrides, r[i].0) < KeyIndex(overrides, r[j].0)
  {
    MergedDistinct(defaults, overrides);
    MergedOrdered(defaults, overrides);
    forall k ensures k in Keys(Merged(defaults, overrides)) <==> k in Keys(defaults) || k in Keys(overrides) {
      MergedKeys(defaults, overrides, k);
    }
    forall k ensures Lookup(Merged(defaults, overrides), k)
      == if k in Keys(overrides) then Lookup(overrides, k) else Lookup(defaults, k)
    {
      MergedLookup(defaults, overrides, k);
    }
    Merged(defaults, overrides)
  }

  /** The mapping an association list denotes: a later entry replaces an earlier one. */
  function ToMap(a: seq<Entry>): map<string, string> {
    if |a| == 0 then map[]
    else ToMap(a[..|a| - 1])[a[|a| - 1].0 := a[|a| - 1].1]
  }

  /** A dict and the mapping it denotes agree on every key. */
  lemma {:induction false} ToMapAgrees(a: Dict, k: string)
    ensures k in ToMap(a) <==> k in Keys(a)
    ensures k in Keys(a) ==> Some(ToMap(a)[k]) == Lookup(a, k)
  {
    if |a| > 0 {
      var p: Dict := a[..|a| - 1];
      var e := a[|a| - 1];
      ToMapAgrees(p, k);
      assert a == p + [e];
      assert Keys(a) == Keys(p) + [e.0];
      LookupConcat(p, [e], k);
      LookupPresent(p, k);
      if k == e.0 {
        assert k !in Keys(p);
      }
    }
  }

  /** Merging is map override: the merged dict denotes `defaults + overrides`. */
  lemma MergeIsMapOverride(defaults: Dict, overrides: Dict)
    ensures ToMap(Merge(defaults, overrides)) == ToMap(defaults) + ToMap(overrides)
  {
    var r := Merge(defaults, overrides);
    forall k ensures (k in ToMap(r) <==> k in ToMap(defaults) + ToMap(overrides))
      && (k in ToMap(r) ==> ToMap(r)[k] == (ToMap(defaults) + ToMap(overrides))[k])
    {
      ToMapAgrees(r, k);
      ToMapAgrees(defaults, k);
      ToMapAgrees(overrides, k);
    }
  }
}

=== FILE: decimal.dfy ===
/**
 * Decimal text of integers: Python's `str(int)` and the zero-padded format
 * spec `{n:0w}`, together with the readers that invert them.
 */
module Decimal {
  import opened Wrappers

  predicate IsDigit(c: char) {
    '0' <= c <= '9'
  }

  predicate AllDigits(s: string) {
    forall i :: 0 <= i < |s| ==> IsDigit(s[i])
  }

  function DigitValue(c: char): nat
    requires IsDigit(c)
  {
    c as int - '0' as int
  }

  function DigitChar(d: nat): (c: char)
    requires d < 10
    ensures IsDigit(c) && DigitValue(c) == d
  {
    ('0' as int + d) as char
  }

  /** The number a string of decimal digits denotes (most significant first). */
  function ParseDigits(s: string): nat
    requires AllDigits(s)
  {
    if |s| == 0 then 0 else ParseDigits(s[..|s| - 1]) * 10 + DigitValue(s[|s| - 1])
  }

  /** Canonical decimal text: non-empty digits without a leading zero (except "0" itself). */
  predicate Canonical(s: string) {
    |s| >= 1 && AllDigits(s) && (|s| > 1 ==> s[0] != '0')
  }

  /** `str(n)` for a non-negative integer. */
  function NatToString(n: nat): (s: string)
    ensures Canonical(s)
    ensures ParseDigits(s) == n
  {
    if n < 10 then [DigitChar(n)]
    else
      var p := NatToString(n / 10);
      var s := p + [DigitChar(n % 10)];
      assert s[..|s| - 1] == p;
      s
  }

  /** A digit string that does not start with '0' denotes a positive number. */
  lemma {:induction false} LeadingNonZero(s: string)
    requires |s| >= 1 && AllDigits(s) && s[0] != '0'
    ensures ParseDigits(s) >= 1
  {
    if |s| > 1 {
      var p := s[..|s| - 1];
      assert p[0] == s[0];
      LeadingNonZero(p);
    }
  }

  /** Canonical text is exactly the text `str` produces for the number it denotes. */
  lemma {:induction false} CanonicalIsNatToString(s: string)
    requires Canonical(s)
    ensures NatToString(ParseDigits(s)) == s
  {
    if |s| > 1 {
      var p := s[..|s| - 1];
      assert p[0] == s[0];
      assert Canonical(p);
      LeadingNonZero(p);
      CanonicalIsNatToString(p);
      var n := ParseDigits(s);
      assert n / 10 == ParseDigits(p) && n % 10 == DigitValue(s[|s| - 1]);
      assert DigitChar(n % 10) == s[|s| - 1];
      assert s == p + [s[|s| - 1]];
    }
  }

  /** Reads the text `str(i)` produces for an integer: an optional '-' then digits. */
  function ParseInt(s: string): Option<int> {
    if |s| >= 2 && s[0] == '-' && AllDigits(s[1..]) then Some(0 - ParseDigits(s[1..]) as int)
    else if |s| >= 1 && AllDigits(s) then Some(ParseDigits(s))
    else None
  }

  /** `str(i)` for any integer. */
  function IntToString(i: int): (s: string)
    ensures ParseInt(s) == Some(i)
    ensures i >= 0 ==> Canonical(s)
    ensures i < 0 ==> |s| >= 2 && s[0] == '-' && Canonical(s[1..])
  {
    if i < 0 then
      var s := "-" + NatToString(-i);
      assert s[1..] == NatToString(-i);
      s
    else NatToString(i)
  }

  function Zeros(k: nat): (z: string)
    ensures |z| == k && forall i :: 0 <= i < k ==> z[i] == '0'
  {
    if k == 0 then "" else "0" + Zeros(k - 1)
  }

  /** Leading zeros do not change the number a digit string denotes. */
  lemma {:induction false} ZerosPrefixNeutral(k: nat, d: string)
    requires AllDigits(d)
    ensures AllDigits(Zeros(k) + d)
    ensures ParseDigits(Zeros(k) + d) == ParseDigits(d)
  {
    var s := Zeros(k) + d;
    if |d| == 0 {
      assert s == Zeros(k);
      if k > 0 {
        assert s[..|s| - 1] == Zeros(k - 1) + "";
        ZerosPrefixNeutral(k - 1, "");
      }
    } else {
      var d' := d[..|d| - 1];
      assert s[..|s| - 1] == Zeros(k) + d';
      ZerosPrefixNeutral(k, d');
    }
  }

  /** The format spec `{n:0<width>}` for a non-negative integer. */
  function ZeroPad(n: nat, width: nat): (s: string)
    ensures AllDigits(s) && ParseDigits(s) == n
    ensures |NatToString(n)| >= width ==> s == NatToString(n)
    ensures |s| == if |NatToString(n)| >= width then |NatToString(n)| else width
  {
    var d := NatToString(n);
    var k := if |d| >= width then 0 else width - |d|;
    ZerosPrefixNeutral(k, d);
    assert k == 0 ==> Zeros(k) + d == d;
    Zeros(k) + d
  }

  function Pow10(k: nat): (p: nat)
    ensures p >= 1
  {
    if k == 0 then 1 else 10 * Pow10(k - 1)
  }

  /** A number below 10^k is written with at most k digits. */
  lemma {:induction false} NatToStringShort(n: nat, k: nat)
    requires k >= 1 && n < Pow10(k)
    ensures |NatToString(n)| <= k
  {
    if n >= 10 {
      assert n / 10 < Pow10(k - 1);
      NatToStringShort(n / 10, k - 1);
    }
  }

  /** A number of at least 10^k is written with more than k digits. */
  lemma {:induction false} NatToStringLong(n: nat, k: nat)
    requires n >= Pow10(k)
    ensures |NatToString(n)| > k
  {
    if k > 0 {
      assert n / 10 >= Pow10(k - 1);
      NatToStringLong(n / 10, k - 1);
    }
  }
}

=== FILE: filenames.dfy ===
/** The per-layer audio file name scheme `<name>_L<two-digit layer id>.flac`. */
module Filenames {
  import opened Decimal

  const LayerTag := "_L"
  const AudioExtension := ".flac"

  /**
   * `f'{name}_L{layer_id:02}.flac'`: the instrument name, "_L", the layer id
   * in at least two digits, ".flac"; exactly two digits below 100 and
   * without a leading zero from 100 on.
   */
  function LayerFilename(name: string, layerId: nat): (f: string)
    ensures |f| >= |name| + 9
    ensures f[..|name|] == name && f[|name|..|name| + 2] == LayerTag && f[|f| - 5..] == AudioExtension
    ensures AllDigits(f[|name| + 2..|f| - 5]) && ParseDigits(f[|name| + 2..|f| - 5]) == layerId
    ensures layerId < 100 <==> |f| == |name| + 9
    ensures layerId >= 100 ==> Canonical(f[|name| + 2..|f| - 5])
  {
    var digits := ZeroPad(layerId, 2);
    var f := name + LayerTag + digits + AudioExtension;
    assert f[|name| + 2..|f| - 5] == digits;
    TwoDigitsBelowHundred(layerId);
    f
  }

  lemma TwoDigitsBelowHundred(n: nat)
    ensures n < 100 <==> |ZeroPad(n, 2)| == 2
  {
    if n < 100 {
      NatToStringShort(n, 2);
    } else {
      NatToStringLong(n, 2);
    }
  }

  /**
   * Different (name, layer id) pairs never share a file name: the layer
   * digits hold no '_', so the last "_L" of a name is found unambiguously.
   */
  lemma LayerFilenameInjective(name1: string, id1: nat, name2: string, id2: nat)
    requires LayerFilename(name1, id1) == LayerFilename(name2, id2)
    ensures name1 == name2 && id1 == id2
  {
    var f := LayerFilename(name1, id1);
    LastUnderscore(name1, id1);
    LastUnderscore(name2, id2);
    if |name1| != |name2| {
      assert false;
    }
    assert name1 == f[..|name1|] == name2;
    assert id1 == ParseDigits(f[|name1| + 2..|f| - 5]) == id2;
  }

  /** The '_' of "_L" right after the name is the last '_' of a layer file name. */
  lemma LastUnderscore(name: string, id: nat)
    ensures var f := LayerFilename(name, id);
      f[|name|] == '_' && forall p :: |name| < p < |f| ==> f[p] != '_'
  {
    LastUnderscoreOf(name, ZeroPad(id, 2));
  }

  lemma LastUnderscoreOf(name: string, digits: string)
    requires AllDigits(digits)
    ensures var f := name + LayerTag + digits + AudioExtension;
      f[|name|] == '_' && forall p :: |name| < p < |f| ==> f[p] != '_'
  {
    var f := name + LayerTag + digits + AudioExtension;
    forall p | |name| < p < |f| ensures f[p] != '_' {
      if p == |name| + 1 {
        assert f[p] == 'L';
      } else if p < |name| + 2 + |digits| {
        assert f[p] == digits[p - |name| - 2];
      } else {
        assert f[p] == AudioExtension[p - |name| - 2 - |digits|];
      }
    }
  }

  /** Contrapositive of injectivity: different pairs give different file names. */
  lemma LayerFilenamesDiffer(name1: string, id1: nat, name2: string, id2: nat)
    requires name1 != name2 || id1 != id2
    ensures LayerFilename(name1, id1) != LayerFilename(name2, id2)
  {
    if LayerFilename(name1, id1) == LayerFilename(name2, id2) {
      LayerFilenameInjective(name1, id1, name2, id2);
    }
  }
}

=== FILE: kit_config.dfy ===
/**
 * The already-parsed kit configuration that both pipelines consume. Keys
 * the program reads with a default are given that default; keys whose
 * absence makes the program fail are `Option`s.
 */
module KitConfig {
  import opened Wrappers
  import opened Attributes

  /** Where the recordings and MIDI previews live. */
  const MediaHome := "media"

  /** One entry of `instruments`. */
  datatype InstrumentSpec = InstrumentSpec(
    name: string,             // internal name, used in layer filenames
    display: Option<string>,  // `display`, which may be missing
    note: int,                // MIDI note number
    lengthMs: int,            // single-take sample length in milliseconds
    layers: seq<int>,         // one velocity threshold per layer
    attributes: Dict)         // `attributes`, empty when missing

  /** The whole configuration mapping. */
  datatype KitSpec = KitSpec(
    kitCode: Option<string>,
    text: map<string, string>,  // top-level text entries (`kit_name`, `author`, ...)
    defaultAttributes: Dict,    // `default_attributes`, empty when missing
    instruments: Option<seq<InstrumentSpec>>)

  /** `cfg.get(key, '')` for a top-level text entry. */
  function TextOf(cfg: KitSpec, key: string): string {
    if key in cfg.text then cfg.text[key] else ""
  }

  /** The name shown for an instrument in the manifest: `display`, defaulting to `name`. */
  function KitDisplay(ins: InstrumentSpec): string {
    ins.display.GetOr(ins.name)
  }

  /** `os.path.join(dir, file)` for a relative directory without a trailing '/'. */
  function JoinPath(dir: string, file: string): string {
    if |file| > 0 && file[0] == '/' then file else dir + "/" + file
  }
}

=== FILE: kit_packaging.dfy ===
/**
 * `create_kit`: the packaging plan for a Hydrogen drum kit. Every layer of
 * every instrument gets a file name, a velocity range and a window of the
 * master recording; the manifest describes them and the archive bundles
 * the manifest with the extracted files.
 */
module KitPackaging {
  import opened Wrappers
  import opened Decimal
  import opened Attributes
  import opened KitConfig
  import opened VelocityRanges
  import opened Timeline
  import opened Filenames
  import opened Manifest
  import opened Staging

  const KitsHome := "kits"
  const ManifestFile := "drumkit.xml"
  const ArchiveExtension := ".h2drumkit"
  const Gain := "1"
  const Pitch := "0"

  /** What the program derives for one layer. */
  datatype LayerPlan = LayerPlan(filename: string, range: Range, startMs: int, durationMs: int)

  /**
   * A recorded request to the external trimming tool: cut the window
   * [startMs, startMs + durationMs) of `source`, mono, into `dest`.
   */
  datatype Extraction = Extraction(source: string, dest: string, startMs: int, durationMs: int)

  /** The ways `create_kit` fails before producing anything. */
  datatype KitError =
    | MissingKitCode          // `os.path.join(TMP.name, None)` raises
    | StagingDirectoryExists  // `os.makedirs` of the staging path raises FileExistsError
    | MissingInstruments      // `enumerate(None)` raises

  datatype KitPackage = KitPackage(
    manifest: Node,               // the tree written to drumkit.xml
    extractions: seq<Extraction>, // trimming requests, in the order issued
    root: string,                 // top-level directory inside the archive
    archivePath: string)          // where the archive is written

  function PlanLayers(ins: InstrumentSpec, base: int): (ls: seq<LayerPlan>)
    ensures |ls| == |ins.layers|
  {
    var ranges := LayerRanges(ins.layers);
    seq(|ins.layers|, l requires 0 <= l < |ins.layers| =>
      LayerPlan(LayerFilename(ins.name, l + 1), ranges[l], LayerStart(ins, base, l), ins.lengthMs))
  }

  /** Every instrument's layers planned from its base offset. */
  function PlanKit(instrs: seq<InstrumentSpec>): (plans: seq<seq<LayerPlan>>)
    ensures |plans| == |instrs|
  {
    var offsets := BaseOffsets(instrs);
    seq(|instrs|, k requires 0 <= k < |instrs| => PlanLayers(instrs[k], offsets[k]))
  }

  /**
   * The timing of layer l of instrument k: it starts note_length * l after
   * the total footprint of the instruments before k, consecutive layers are
   * exactly one note length apart, and it lasts the exact sample length.
   */
  lemma {:induction false} LayerTiming(instrs: seq<InstrumentSpec>, k: nat, l: nat)
    requires k < |instrs| && l < |instrs[k].layers|
    ensures PlanKit(instrs)[k][l].startMs
      == TotalFootprint(instrs[..k]) + NoteLength(instrs[k].lengthMs) * l
    ensures PlanKit(instrs)[k][l].durationMs == instrs[k].lengthMs
    ensures l > 0 ==>
      PlanKit(instrs)[k][l].startMs - PlanKit(instrs)[k][l - 1].startMs == NoteLength(instrs[k].lengthMs)
  {
    BaseOffsetIsPrefixSum(instrs, k);
    var nl := NoteLength(instrs[k].lengthMs);
    assert nl * l - nl * (l - 1) == nl;
  }

  function SourceFile(kitCode: string): string {
    JoinPath(MediaHome, kitCode + ".wav")
  }

  function LayerExtractions(source: string, ls: seq<LayerPlan>): (es: seq<Extraction>)
    ensures |es| == |ls|
  {
    seq(|ls|, l requires 0 <= l < |ls| => Extraction(source, ls[l].filename, ls[l].startMs, ls[l].durationMs))
  }

  /** The trimming requests in the order the nested loops issue them. */
  function Extractions(source: string, plans: seq<seq<LayerPlan>>): seq<Extraction> {
    if |plans| == 0 then []
    else Extractions(source, plans[..|plans| - 1]) + LayerExtractions(source, plans[|plans| - 1])
  }

  function LayerEntryOf(lp: LayerPlan): LayerEntry {
    LayerEntry(lp.filename, BoundText(lp.range.min), BoundText(lp.range.max), Gain, Pitch)
  }

  function InstrumentEntryOf(id: nat, ins: InstrumentSpec, defaults: Dict, ls: seq<LayerPlan>): InstrumentEntry {
    InstrumentEntry(id, KitDisplay(ins), ins.note, Merge(defaults, ins.attributes),
      seq(|ls|, l requires 0 <= l < |ls| => LayerEntryOf(ls[l])))
  }

  /**
   * The manifest content: instruments in declared order with their
   * position as id, one layer entry per threshold, each with gain "1",
   * pitch "0" and the layer's file name; the first minimum is the text "0",
   * each later minimum repeats the previous maximum, and each maximum is
   * the six-decimal number nearest to threshold/127.
   */
  function BuildManifest(cfg: KitSpec, instrs: seq<InstrumentSpec>): (m: KitManifest)
    ensures ("kit_name" in cfg.text ==> m.name == cfg.text["kit_name"]) && ("kit_name" !in cfg.text ==> m.name == "")
    ensures ("author" in cfg.text ==> m.author == cfg.text["author"]) && ("author" !in cfg.text ==> m.author == "")
    ensures ("info" in cfg.text ==> m.info == cfg.text["info"]) && ("info" !in cfg.text ==> m.info == "")
    ensures ("lincense" in cfg.text ==> m.license == cfg.text["lincense"]) && ("lincense" !in cfg.text ==> m.license == "")
    ensures |m.instruments| == |instrs|
    ensures forall k :: 0 <= k < |instrs| ==>
      && m.instruments[k].id == k
      && m.instruments[k].name == instrs[k].display.GetOr(instrs[k].name)
      && m.instruments[k].midiOutNote == instrs[k].note
      && |m.instruments[k].layers| == |instrs[k].layers|
      && (|instrs[k].layers| > 0 ==> m.instruments[k].layers[0].min == "0")
    ensures forall k, l :: 0 <= k < |instrs| && 0 <= l < |instrs[k].layers| ==>
      var e := m.instruments[k].layers[l];
      && e.gain == "1" && e.pitch == "0"
      && e.filename == LayerFilename(instrs[k].name, l + 1)
      && FixedMicros(e.max).Some?
      && -127 < 254 * FixedMicros(e.max).value - 2 * instrs[k].layers[l] * 1000000 < 127
      && (l > 0 ==> e.min == m.instruments[k].layers[l - 1].max)
  {
    var plans := PlanKit(instrs);
    KitManifest(TextOf(cfg, "kit_name"), TextOf(cfg, "author"), TextOf(cfg, "info"),
      TextOf(cfg, "lincense"),
      seq(|instrs|, k requires 0 <= k < |instrs| =>
        InstrumentEntryOf(k, instrs[k], cfg.defaultAttributes, plans[k])))
  }

  /**
   * The license element is read from the misspelt key `lincense`, and an
   * entry under the correct spelling `license` changes nothing: a
   * configuration that only spells it correctly gets an empty license.
   */
  lemma LicenseReadsMisspeltKey(cfg: KitSpec, instrs: seq<InstrumentSpec>, correct: string)
    ensures "lincense" in cfg.text ==> BuildManifest(cfg, instrs).license == cfg.text["lincense"]
    ensures "lincense" !in cfg.text ==> BuildManifest(cfg, instrs).license == ""
    ensures BuildManifest(cfg.(text := cfg.text["license" := correct]), instrs).license
      == BuildManifest(cfg, instrs).license
  {
  }

  /** Every instrument's attribute elements are the defaults merged with its own attributes. */
  lemma ManifestAttributes(cfg: KitSpec, instrs: seq<InstrumentSpec>, k: nat, key: string)
    requires k < |instrs|
    ensures var a := BuildManifest(cfg, instrs).instruments[k].attributes;
      && (key in Keys(a) <==> key in Keys(cfg.defaultAttributes) || key in Keys(instrs[k].attributes))
      && Lookup(a, key) == if key in Keys(instrs[k].attributes) then Lookup(instrs[k].attributes, key)
                           else Lookup(cfg.defaultAttributes, key)
    ensures var a := BuildManifest(cfg, instrs).instruments[k].attributes;
      && |a| >= |cfg.defaultAttributes|
      && (forall i :: 0 <= i < |cfg.defaultAttributes| ==> a[i].0 == cfg.defaultAttributes[i].0)
      && InOverrideOrder(a, instrs[k].attributes, |cfg.defaultAttributes|)
  {
  }

  /**
   * `create_kit`: fails on a missing kit code, a kit code whose staging
   * directory already exists, or a missing instrument list, in that order;
   * otherwise yields the package.
   */
  function CreateKit(cfg: KitSpec): (r: Result<KitPackage, KitError>)
    ensures cfg.kitCode.None? ==> r == Failure(MissingKitCode)
    ensures cfg.kitCode.Some? && StagingFails(cfg.kitCode.value) ==> r == Failure(StagingDirectoryExists)
    ensures cfg.kitCode.Some? && !StagingFails(cfg.kitCode.value) && cfg.instruments.None?
      ==> r == Failure(MissingInstruments)
    ensures r.Success? <==>
      cfg.kitCode.Some? && !StagingFails(cfg.kitCode.value) && cfg.instruments.Some?
    ensures r.Success? ==> cfg.kitCode.value != ""
    ensures r.Success? ==>
      var code := cfg.kitCode.value;
      && (code[0] != '/' ==> r.value.archivePath == KitsHome + "/" + code + ArchiveExtension)
      && (code[0] == '/' ==> r.value.archivePath == code + ArchiveExtension)
    ensures r.Success? ==>
      && r.value.root == cfg.kitCode.value
      && |r.value.extractions| == TotalLayers(cfg.instruments.value)
      && (forall i :: 0 <= i < |r.value.extractions| ==>
            r.value.extractions[i].source == SourceFile(cfg.kitCode.value))
      && (Unambiguous(BuildManifest(cfg, cfg.instruments.value)) ==>
            ReadManifest(r.value.manifest) == Some(BuildManifest(cfg, cfg.instruments.value)))
  {
    match cfg.kitCode
    case None => Failure(MissingKitCode)
    case Some(code) =>
      if StagingFails(code) then Failure(StagingDirectoryExists)
      else
        StagedCodeNonEmpty(code);
        match cfg.instruments
        case None => Failure(MissingInstruments)
        case Some(instrs) => Success(Package(cfg, code, instrs))
  }

  /** What `create_kit` produces once the staging directory is made and the instruments are listed. */
  function Package(cfg: KitSpec, code: string, instrs: seq<InstrumentSpec>): (pkg: KitPackage)
    requires code != ""
    ensures code[0] != '/' ==> pkg.archivePath == KitsHome + "/" + code + ArchiveExtension
    ensures code[0] == '/' ==> pkg.archivePath == code + ArchiveExtension
    ensures pkg.root == code
    ensures |pkg.extractions| == TotalLayers(instrs)
    ensures forall i :: 0 <= i < |pkg.extractions| ==> pkg.extractions[i].source == SourceFile(code)
    ensures Unambiguous(BuildManifest(cfg, instrs)) ==>
      ReadManifest(pkg.manifest) == Some(BuildManifest(cfg, instrs))
  {
    var m := BuildManifest(cfg, instrs);
    var es := Extractions(SourceFile(code), PlanKit(instrs));
    KitExtractions(SourceFile(code), instrs);
    assert Unambiguous(m) ==> ReadManifest(ManifestXml(m)) == Some(m) by {
      if Unambiguous(m) { ManifestRoundTrip(m); }
    }
    assert (code + ArchiveExtension)[0] == code[0];
    KitPackage(ManifestXml(m), es, code, JoinPath(KitsHome, code + ArchiveExtension))
  }

  function TotalLayers(instrs: seq<InstrumentSpec>): nat {
    if |instrs| == 0 then 0 else TotalLayers(instrs[..|instrs| - 1]) + |instrs[|instrs| - 1].layers|
  }

  /** One trimming request per layer of the kit, each reading the kit's source file. */
  lemma KitExtractions(source: string, instrs: seq<InstrumentSpec>)
    ensures var es := Extractions(source, PlanKit(instrs));
      && |es| == TotalLayers(instrs)
      && forall i :: 0 <= i < |es| ==> es[i].source == source
  {
    ExtractionsCount(source, instrs, |instrs|);
    ExtractionsSource(source, PlanKit(instrs), |instrs|);
    assert PlanKit(instrs)[..|instrs|] == PlanKit(instrs);
    assert instrs[..|instrs|] == instrs;
  }

  lemma {:induction false} ExtractionsCount(source: string, instrs: seq<InstrumentSpec>, k: nat)
    requires k <= |instrs|
    ensures |Extractions(source, PlanKit(instrs)[..k])| == TotalLayers(instrs[..k])
  {
    if k > 0 {
      ExtractionsCount(source, instrs, k - 1);
      assert PlanKit(instrs)[..k][..k - 1] == PlanKit(instrs)[..k - 1];
      assert instrs[..k][..k - 1] == instrs[..k - 1];
    }
  }

  lemma {:induction false} ExtractionsSource(source: string, plans: seq<seq<LayerPlan>>, k: nat)
    requires k <= |plans|
    ensures forall i :: 0 <= i < |Extractions(source, plans[..k])| ==> Extractions(source, plans[..k])[i].source == source
  {
    if k > 0 {
      ExtractionsSource(source, plans, k - 1);
      assert plans[..k][..k - 1] == plans[..k - 1];
    }
  }

  // ---- The extraction windows never overlap ----

  /** Each window ends no later than any later window starts. */
  predicate Sequential(es: seq<Extraction>) {
    forall i, j :: 0 <= i < j < |es| ==> es[i].startMs + es[i].durationMs <= es[j].startMs
  }

  /** Every window lies inside [lo, hi]. */
  predicate Within(es: seq<Extraction>, lo: int, hi: int) {
    forall i :: 0 <= i < |es| ==> lo <= es[i].startMs && es[i].startMs + es[i].durationMs <= hi
  }

  lemma SequentialConcat(a: seq<Extraction>, b: seq<Extraction>, lo: int, mid: int, hi: int)
    requires Sequential(a) && Sequential(b) && Within(a, lo, mid) && Within(b, mid, hi) && lo <= mid <= hi
    ensures Sequential(a + b) && Within(a + b, lo, hi)
  {
    forall i, j | 0 <= i < j < |a + b| ensures (a + b)[i].startMs + (a + b)[i].durationMs <= (a + b)[j].startMs {
      if i < |a| && j >= |a| {
        assert (a + b)[i] == a[i] && (a + b)[j] == b[j - |a|];
      }
    }
  }

  lemma InstrumentWindows(source: string, instrs: seq<InstrumentSpec>, k: nat)
    requires NonNegativeLengths(instrs) && k < |instrs|
    ensures var es := LayerExtractions(source, PlanKit(instrs)[k]);
      Sequential(es) && Within(es, TotalFootprint(instrs[..k]), TotalFootprint(instrs[..k + 1]))
  {
    var ins := instrs[k];
    var base := BaseOffsets(instrs)[k];
    BaseOffsetIsPrefixSum(instrs, k);
    assert instrs[..k + 1][..k] == instrs[..k];
    var es := LayerExtractions(source, PlanKit(instrs)[k]);
    forall i, j | 0 <= i < j < |es| ensures es[i].startMs + es[i].durationMs <= es[j].startMs {
      LayerWindows(ins, base, i, j);
    }
    forall i | 0 <= i < |es|
      ensures base <= es[i].startMs && es[i].startMs + es[i].durationMs <= base + Footprint(ins)
    {
      LayerWindows(ins, base, i, i);
    }
  }

  lemma {:induction false} PrefixWindows(source: string, instrs: seq<InstrumentSpec>, k: nat)
    requires NonNegativeLengths(instrs) && k <= |instrs|
    ensures var es := Extractions(source, PlanKit(instrs)[..k]);
      Sequential(es) && Within(es, 0, TotalFootprint(instrs[..k]))
  {
    if k > 0 {
      PrefixWindows(source, instrs, k - 1);
      InstrumentWindows(source, instrs, k - 1);
      ExtractionsStep(source, instrs, k - 1);
      BaseOffsetsNondecreasing(instrs, 0, k - 1);
      BaseOffsetIsPrefixSum(instrs, k - 1);
      MulNonNegative(NoteLength(instrs[k - 1].lengthMs), |instrs[k - 1].layers|);
      SequentialConcat(Extractions(source, PlanKit(instrs)[..k - 1]),
        LayerExtractions(source, PlanKit(instrs)[k - 1]),
        0, TotalFootprint(instrs[..k - 1]), TotalFootprint(instrs[..k]));
    }
  }

  /**
   * With non-negative sample lengths no two extraction windows overlap: in
   * request order each window ends before the next one starts, and all of
   * them lie within [0, total footprint) of the master recording.
   */
  lemma ExtractionsDoNotOverlap(source: string, instrs: seq<InstrumentSpec>)
    requires NonNegativeLengths(instrs)
    ensures Sequential(Extractions(source, PlanKit(instrs)))
    ensures Within(Extractions(source, PlanKit(instrs)), 0, TotalFootprint(instrs))
  {
    PrefixWindows(source, instrs, |instrs|);
    assert PlanKit(instrs)[..|instrs|] == PlanKit(instrs);
    assert instrs[..|instrs|] == instrs;
  }

  // ---- The manifest names exactly the extracted files ----

  /** The layer file names the manifest lists, instrument by instrument. */
  function ManifestFiles(es: seq<InstrumentEntry>): seq<string> {
    if |es| == 0 then []
    else
      var last := es[|es| - 1];
      ManifestFiles(es[..|es| - 1]) + seq(|last.layers|, l requires 0 <= l < |last.layers| => last.layers[l].filename)
  }

  function Destinations(es: seq<Extraction>): (ds: seq<string>)
    ensures |ds| == |es|
  {
    seq(|es|, i requires 0 <= i < |es| => es[i].dest)
  }

  /** The file names an instrument's layers get, in layer order. */
  function InstrumentFiles(ins: InstrumentSpec): (fs: seq<string>)
    ensures |fs| == |ins.layers|
  {
    seq(|ins.layers|, l requires 0 <= l < |ins.layers| => LayerFilename(ins.name, l + 1))
  }

  function EntryFiles(e: InstrumentEntry): seq<string> {
    seq(|e.layers|, l requires 0 <= l < |e.layers| => e.layers[l].filename)
  }

  lemma InstrumentDestinations(source: string, instrs: seq<InstrumentSpec>, k: nat)
    requires k < |instrs|
    ensures Destinations(LayerExtractions(source, PlanKit(instrs)[k])) == InstrumentFiles(instrs[k])
  {
  }

  lemma InstrumentEntryFiles(cfg: KitSpec, instrs: seq<InstrumentSpec>, k: nat)
    requires k < |instrs|
    ensures EntryFiles(BuildManifest(cfg, instrs).instruments[k]) == InstrumentFiles(instrs[k])
  {
  }

  lemma {:induction false} PrefixFiles(source: string, instrs: seq<InstrumentSpec>, es: seq<InstrumentEntry>, k: nat)
    requires k <= |instrs| == |es|
    requires forall j :: 0 <= j < |es| ==> EntryFiles(es[j]) == InstrumentFiles(instrs[j])
    ensures Destinations(Extractions(source, PlanKit(instrs)[..k])) == ManifestFiles(es[..k])
  {
    if k > 0 {
      PrefixFiles(source, instrs, es, k - 1);
      var plans := PlanKit(instrs);
      assert plans[..k][..k - 1] == plans[..k - 1];
      assert es[..k][..k - 1] == es[..k - 1];
      var a := Extractions(source, plans[..k - 1]);
      var b := LayerExtractions(source, plans[k - 1]);
      assert Destinations(a + b) == Destinations(a) + Destinations(b);
      InstrumentDestinations(source, instrs, k - 1);
      assert ManifestFiles(es[..k]) == ManifestFiles(es[..k - 1]) + EntryFiles(es[k - 1]);
    }
  }

  /**
   * The trimming requests write exactly the files the manifest lists, in
   * the same order: request i writes the i-th layer file of the manifest.
   */
  lemma AllFiles(source: string, instrs: seq<InstrumentSpec>, es: seq<InstrumentEntry>)
    requires |instrs| == |es|
    requires forall j :: 0 <= j < |es| ==> EntryFiles(es[j]) == InstrumentFiles(instrs[j])
    ensures Destinations(Extractions(source, PlanKit(instrs))) == ManifestFiles(es)
  {
    PrefixFiles(source, instrs, es, |instrs|);
    assert PlanKit(instrs)[..|instrs|] == PlanKit(instrs);
    assert es[..|instrs|] == es;
  }

  lemma ExtractedFilesAreManifestFiles(cfg: KitSpec, source: string, instrs: seq<InstrumentSpec>)
    ensures Destinations(Extractions(source, PlanKit(instrs)))
      == ManifestFiles(BuildManifest(cfg, instrs).instruments)
  {
    var es := BuildManifest(cfg, instrs).instruments;
    forall j | 0 <= j < |es| ensures EntryFiles(es[j]) == InstrumentFiles(instrs[j]) {
      InstrumentEntryFiles(cfg, instrs, j);
    }
    AllFiles(source, instrs, es);
  }

  predicate DistinctNames(instrs: seq<InstrumentSpec>) {
    forall j, k :: 0 <= j < k < |instrs| ==> instrs[j].name != instrs[k].name
  }

  predicate Distinct(ss: seq<string>) {
    forall i, j :: 0 <= i < j < |ss| ==> ss[i] != ss[j]
  }

  /** `d` is the file of some layer of one of the first k instruments. */
  ghost predicate FileOfPrefix(instrs: seq<InstrumentSpec>, k: nat, d: string) {
    exists j, id: nat :: 0 <= j < k && j < |instrs| && 1 <= id <= |instrs[j].layers|
      && d == LayerFilename(instrs[j].name, id)
  }

  /** The files of instrument k join the files of the instruments before it. */
  lemma AppendFilesOfPrefix(instrs: seq<InstrumentSpec>, k: nat, a: seq<string>)
    requires k < |instrs|
    requires forall i :: 0 <= i < |a| ==> FileOfPrefix(instrs, k, a[i])
    ensures var ds := a + InstrumentFiles(instrs[k]);
      forall i :: 0 <= i < |ds| ==> FileOfPrefix(instrs, k + 1, ds[i])
  {
    var ds := a + InstrumentFiles(instrs[k]);
    forall i | 0 <= i < |ds| ensures FileOfPrefix(instrs, k + 1, ds[i]) {
      if i >= |a| {
        assert ds[i] == LayerFilename(instrs[k].name, i - |a| + 1);
      } else {
        assert FileOfPrefix(instrs, k, a[i]);
      }
    }
  }

  /** Two duplicate-free lists with no element in common concatenate to a duplicate-free list. */
  lemma DistinctConcat(a: seq<string>, b: seq<string>)
    requires Distinct(a) && Distinct(b)
    requires forall i, j :: 0 <= i < |a| && 0 <= j < |b| ==> a[i] != b[j]
    ensures Distinct(a + b)
  {
    var ds := a + b;
    forall i, j | 0 <= i < j < |ds| ensures ds[i] != ds[j] {
      if j < |a| {
        assert ds[i] == a[i] && ds[j] == a[j];
      } else if i < |a| {
        assert ds[i] == a[i] && ds[j] == b[j - |a|];
      } else {
        assert ds[i] == b[i - |a|] && ds[j] == b[j - |a|];
      }
    }
  }

  /** The layers of one instrument get pairwise different files. */
  lemma InstrumentFilesDistinct(ins: InstrumentSpec)
    ensures Distinct(InstrumentFiles(ins))
  {
    var fs := InstrumentFiles(ins);
    forall i, j | 0 <= i < j < |fs| ensures fs[i] != fs[j] {
      assert fs[i] == LayerFilename(ins.name, i + 1) && fs[j] == LayerFilename(ins.name, j + 1);
      LayerFilenamesDiffer(ins.name, i + 1, ins.name, j + 1);
    }
  }

  /** A file of an earlier instrument is never a file of instrument k, whose name is new. */
  lemma EarlierFileDiffers(instrs: seq<InstrumentSpec>, k: nat, d: string, id: nat)
    requires DistinctNames(instrs) && k < |instrs| && FileOfPrefix(instrs, k, d)
    ensures d != LayerFilename(instrs[k].name, id)
  {
    var j: nat, id': nat :| j < k && 1 <= id' <= |instrs[j].layers| && d == LayerFilename(instrs[j].name, id');
    LayerFilenamesDiffer(instrs[j].name, id', instrs[k].name, id);
  }

  lemma DistinctAppend(instrs: seq<InstrumentSpec>, k: nat, a: seq<string>)
    requires DistinctNames(instrs) && k < |instrs|
    requires Distinct(a) && forall i :: 0 <= i < |a| ==> FileOfPrefix(instrs, k, a[i])
    ensures var ds := a + InstrumentFiles(instrs[k]);
      Distinct(ds) && forall i :: 0 <= i < |ds| ==> FileOfPrefix(instrs, k + 1, ds[i])
  {
    AppendFilesOfPrefix(instrs, k, a);
    var b := InstrumentFiles(instrs[k]);
    InstrumentFilesDistinct(instrs[k]);
    forall i, j | 0 <= i < |a| && 0 <= j < |b| ensures a[i] != b[j] {
      EarlierFileDiffers(instrs, k, a[i], j + 1);
    }
    DistinctConcat(a, b);
  }

  lemma {:induction false} PrefixDestinations(source: string, instrs: seq<InstrumentSpec>, k: nat)
    requires DistinctNames(instrs) && k <= |instrs|
    ensures var ds := Destinations(Extractions(source, PlanKit(instrs)[..k]));
      Distinct(ds) && forall i :: 0 <= i < |ds| ==> FileOfPrefix(instrs, k, ds[i])
  {
    if k > 0 {
      PrefixDestinations(source, instrs, k - 1);
      ExtractionsStep(source, instrs, k - 1);
      var a := Extractions(source, PlanKit(instrs)[..k - 1]);
      var b := LayerExtractions(source, PlanKit(instrs)[k - 1]);
      DestinationsConcat(a, b);
      InstrumentDestinations(source, instrs, k - 1);
      DistinctAppend(instrs, k - 1, Destinations(a));
    }
  }

  lemma DestinationsConcat(a: seq<Extraction>, b: seq<Extraction>)
    ensures Destinations(a + b) == Destinations(a) + Destinations(b)
  {
  }

  lemma DestinationsDistinct(source: string, instrs: seq<InstrumentSpec>)
    requires DistinctNames(instrs)
    ensures Distinct(Destinations(Extractions(source, PlanKit(instrs))))
  {
    PrefixDestinations(source, instrs, |instrs|);
    assert PlanKit(instrs)[..|instrs|] == PlanKit(instrs);
  }

  // ---- The archive ----

  /**
   * The member paths of the archive: the root directory, the manifest and
   * the file of every request the trimming tool actually wrote (`written[i]`
   * for request i; the program never looks at the tool's exit status).
   */
  function ArchiveMembers(pkg: KitPackage, written: seq<bool>): set<string>
    requires |written| == |pkg.extractions|
  {
    {pkg.root, pkg.root + "/" + ManifestFile}
      + set i | 0 <= i < |written| && written[i] :: pkg.root + "/" + pkg.extractions[i].dest
  }

  /** The parts a successful `create_kit` is made of. */
  lemma CreateKitParts(cfg: KitSpec)
    requires CreateKit(cfg).Success?
    ensures var pkg := CreateKit(cfg).value;
      && pkg.root == cfg.kitCode.value
      && pkg.extractions == Extractions(SourceFile(pkg.root), PlanKit(cfg.instruments.value))
      && pkg.manifest == ManifestXml(BuildManifest(cfg, cfg.instruments.value))
      && pkg.archivePath == JoinPath(KitsHome, pkg.root + ArchiveExtension)
  {
  }

  lemma ArchiveOfAllWritten(pkg: KitPackage, written: seq<bool>, files: seq<string>)
    requires |written| == |pkg.extractions| && forall i :: 0 <= i < |written| ==> written[i]
    requires Destinations(pkg.extractions) == files
    ensures ArchiveMembers(pkg, written)
      == {pkg.root, pkg.root + "/" + ManifestFile} + set f | f in files :: pkg.root + "/" + f
  {
    forall f | f in files ensures pkg.root + "/" + f in ArchiveMembers(pkg, written) {
      var i :| 0 <= i < |files| && files[i] == f;
      assert pkg.extractions[i].dest == f;
    }
    forall i | 0 <= i < |written| ensures pkg.extractions[i].dest in files {
      assert files[i] == pkg.extractions[i].dest;
    }
  }

  /**
   * When every request wrote its file, the archive holds exactly the root
   * directory, the manifest and one file per layer the manifest lists.
   */
  lemma ArchiveWhenAllWritten(cfg: KitSpec, written: seq<bool>)
    requires CreateKit(cfg).Success?
    requires |written| == |CreateKit(cfg).value.extractions| && forall i :: 0 <= i < |written| ==> written[i]
    ensures var pkg := CreateKit(cfg).value;
      var files := ManifestFiles(BuildManifest(cfg, cfg.instruments.value).instruments);
      ArchiveMembers(pkg, written)
        == {pkg.root, pkg.root + "/" + ManifestFile} + set f | f in files :: pkg.root + "/" + f
  {
    var pkg := CreateKit(cfg).value;
    CreateKitParts(cfg);
    ExtractedFilesAreManifestFiles(cfg, SourceFile(pkg.root), cfg.instruments.value);
    ArchiveOfAllWritten(pkg, written, ManifestFiles(BuildManifest(cfg, cfg.instruments.value).instruments));
  }

  lemma AfterRoot(root: string, a: string, b: string)
    requires root + "/" + a == root + "/" + b
    ensures a == b
  {
    assert (root + "/" + a)[|root| + 1..] == a;
    assert (root + "/" + b)[|root| + 1..] == b;
  }

  lemma ArchiveLacksUnwritten(pkg: KitPackage, written: seq<bool>, i: nat)
    requires |written| == |pkg.extractions| && i < |written| && !written[i]
    requires Distinct(Destinations(pkg.extractions))
    requires pkg.extractions[i].dest != ManifestFile
    ensures pkg.root + "/" + pkg.extractions[i].dest !in ArchiveMembers(pkg, written)
  {
    var ds := Destinations(pkg.extractions);
    var d := pkg.extractions[i].dest;
    var path := pkg.root + "/" + d;
    assert path != pkg.root + "/" + ManifestFile by {
      if path == pkg.root + "/" + ManifestFile {
        AfterRoot(pkg.root, d, ManifestFile);
      }
    }
    assert |path| > |pkg.root|;
    forall j | 0 <= j < |written| && written[j] ensures pkg.root + "/" + pkg.extractions[j].dest != path {
      assert ds[j] == pkg.extractions[j].dest && ds[i] == d;
      if pkg.root + "/" + pkg.extractions[j].dest == path {
        AfterRoot(pkg.root, pkg.extractions[j].dest, d);
      }
    }
  }

  /**
   * The manifest keeps the entry of a layer whose extraction failed: with
   * distinct instrument names, if request i did not write its file, the
   * manifest still lists that file but the archive does not contain it.
   */
  lemma FailedExtractionLeavesDanglingEntry(cfg: KitSpec, written: seq<bool>, i: nat)
    requires CreateKit(cfg).Success? && DistinctNames(cfg.instruments.value)
    requires |written| == |CreateKit(cfg).value.extractions| && i < |written| && !written[i]
    ensures var pkg := CreateKit(cfg).value;
      && pkg.extractions[i].dest in ManifestFiles(BuildManifest(cfg, cfg.instruments.value).instruments)
      && pkg.root + "/" + pkg.extractions[i].dest !in ArchiveMembers(pkg, written)
  {
    var pkg := CreateKit(cfg).value;
    var instrs := cfg.instruments.value;
    var source := SourceFile(pkg.root);
    CreateKitParts(cfg);
    ExtractedFilesAreManifestFiles(cfg, source, instrs);
    ExtractionNotManifest(source, instrs, i);
    assert Destinations(pkg.extractions)[i] == pkg.extractions[i].dest;
    ArchiveLacksUnwritten(pkg, written, i);
  }

  /** No extraction of a kit with distinct names is written to the manifest's file name. */
  lemma ExtractionNotManifest(source: string, instrs: seq<InstrumentSpec>, i: nat)
    requires DistinctNames(instrs) && i < |Extractions(source, PlanKit(instrs))|
    ensures Distinct(Destinations(Extractions(source, PlanKit(instrs))))
    ensures Extractions(source, PlanKit(instrs))[i].dest != ManifestFile
  {
    var ds := Destinations(Extractions(source, PlanKit(instrs)));
    PrefixDestinations(source, instrs, |instrs|);
    assert PlanKit(instrs)[..|instrs|] == PlanKit(instrs);
    var d := ds[i];
    assert FileOfPrefix(instrs, |instrs|, d);
    var j: nat, id: nat :| j < |instrs| && 1 <= id <= |instrs[j].layers| && d == LayerFilename(instrs[j].name, id);
    assert d[|d| - 5..] == AudioExtension;
    assert d[|d| - 1] != ManifestFile[|ManifestFile| - 1];
  }

  // ---- The nested loops of the program, with a running offset ----

  lemma ExtractionsStep(source: string, instrs: seq<InstrumentSpec>, k: nat)
    requires k < |instrs|
    ensures Extractions(source, PlanKit(instrs)[..k + 1])
      == Extractions(source, PlanKit(instrs)[..k]) + LayerExtractions(source, PlanKit(instrs)[k])
    ensures TotalFootprint(instrs[..k + 1]) == TotalFootprint(instrs[..k]) + Footprint(instrs[k])
  {
    assert PlanKit(instrs)[..k + 1][..k] == PlanKit(instrs)[..k];
    assert instrs[..k + 1][..k] == instrs[..k];
  }

  lemma TakeOneMore<T>(s: seq<T>, i: nat)
    requires i < |s|
    ensures s[..i + 1] == s[..i] + [s[i]]
  {
  }

  lemma LayerRequestAt(source: string, ins: InstrumentSpec, base: int, idx: nat)
    requires idx < |ins.layers|
    ensures LayerExtractions(source, PlanLayers(ins, base))[idx]
      == Extraction(source, LayerFilename(ins.name, idx + 1), base + NoteLength(ins.lengthMs) * idx, ins.lengthMs)
  {
  }

  /** The inner loop: the requests for the layers of one instrument, from its base offset. */
  method IssueLayerExtractions(source: string, ins: InstrumentSpec, startOffset: int)
    returns (requests: seq<Extraction>)
    ensures requests == LayerExtractions(source, PlanLayers(ins, startOffset))
  {
    var noteLength := NoteLength(ins.lengthMs);
    ghost var expected := LayerExtractions(source, PlanLayers(ins, startOffset));
    requests := [];
    var idx := 0;
    while idx < |ins.layers|
      invariant 0 <= idx <= |ins.layers|
      invariant requests == expected[..idx]
    {
      var start := startOffset + noteLength * idx;
      var request := Extraction(source, LayerFilename(ins.name, idx + 1), start, ins.lengthMs);
      assert request == expected[idx] by {
        LayerRequestAt(source, ins, startOffset, idx);
      }
      requests := requests + [request];
      assert requests == expected[..idx + 1] by {
        TakeOneMore(expected, idx);
      }
      idx := idx + 1;
    }
    assert expected[..idx] == expected;
  }

  /**
   * The program's own nested loops with a mutable running offset issue the
   * same requests as the fold, and the offset ends at the total footprint.
   */
  method IssueExtractions(source: string, instrs: seq<InstrumentSpec>) returns (requests: seq<Extraction>, startOffset: int)
    ensures requests == Extractions(source, PlanKit(instrs))
    ensures startOffset == TotalFootprint(instrs)
  {
    requests := [];
    startOffset := 0;
    var k := 0;
    while k < |instrs|
      invariant 0 <= k <= |instrs|
      invariant startOffset == TotalFootprint(instrs[..k])
      invariant requests == Extractions(source, PlanKit(instrs)[..k])
    {
      BaseOffsetIsPrefixSum(instrs, k);
      var layerRequests := IssueLayerExtractions(source, instrs[k], startOffset);
      requests := requests + layerRequests;
      ExtractionsStep(source, instrs, k);
      startOffset := startOffset + NoteLength(instrs[k].lengthMs) * |instrs[k].layers|;
      k := k + 1;
    }
    assert PlanKit(instrs)[..k] == PlanKit(instrs);
    assert instrs[..k] == instrs;
  }
}

=== FILE: manifest.dfy ===
/**
 * The kit manifest (`drumkit.xml`): a typed view of its content, the
 * abstract XML element tree it is written as, and a reader that recovers
 * the typed view from the tree.
 */
module Manifest {
  import opened Wrappers
  import opened Decimal
  import opened Attributes

  /** An XML element: tag, text ("" for none, which serialises the same) and children. */
  datatype Node = Node(tag: string, text: string, children: seq<Node>)

  /** `_add_tag(parent, tag, value)`: a child element holding only text. */
  function Leaf(tag: string, text: string): Node {
    Node(tag, text, [])
  }

  datatype LayerEntry = LayerEntry(filename: string, min: string, max: string, gain: string, pitch: string)

  datatype InstrumentEntry = InstrumentEntry(
    id: nat, name: string, midiOutNote: int, attributes: Dict, layers: seq<LayerEntry>)

  datatype KitManifest = KitManifest(
    name: string, author: string, info: string, license: string, instruments: seq<InstrumentEntry>)

  const LayerElement := "layer"

  function LayerXml(e: LayerEntry): Node {
    Node(LayerElement, "", [Leaf("filename", e.filename), Leaf("min", e.min), Leaf("max", e.max),
                            Leaf("gain", e.gain), Leaf("pitch", e.pitch)])
  }

  /** `_set_instrument_attr`: one element per attribute, named after its key, in dict order. */
  function AttributeXml(a: seq<Entry>): seq<Node> {
    seq(|a|, i requires 0 <= i < |a| => Leaf(a[i].0, a[i].1))
  }

  function LayersXml(ls: seq<LayerEntry>): seq<Node> {
    seq(|ls|, l requires 0 <= l < |ls| => LayerXml(ls[l]))
  }

  function InstrumentXml(e: InstrumentEntry): Node {
    Node("instrument", "",
      [Leaf("id", NatToString(e.id)), Leaf("name", e.name), Leaf("midiOutNote", IntToString(e.midiOutNote))]
      + AttributeXml(e.attributes) + LayersXml(e.layers))
  }

  function InstrumentsXml(es: seq<InstrumentEntry>): seq<Node> {
    seq(|es|, k requires 0 <= k < |es| => InstrumentXml(es[k]))
  }

  /** The element tree rooted at `drumkit_info`. */
  function ManifestXml(m: KitManifest): Node {
    Node("drumkit_info", "",
      [Leaf("name", m.name), Leaf("author", m.author), Leaf("info", m.info), Leaf("license", m.license),
       Node("instrumentList", "", InstrumentsXml(m.instruments))])
  }

  // ---- Reading the tree back ----

  function ReadLayer(n: Node): Option<LayerEntry> {
    if n.tag == LayerElement && |n.children| == 5
      && n.children[0].tag == "filename" && n.children[1].tag == "min" && n.children[2].tag == "max"
      && n.children[3].tag == "gain" && n.children[4].tag == "pitch"
    then Some(LayerEntry(n.children[0].text, n.children[1].text, n.children[2].text,
                         n.children[3].text, n.children[4].text))
    else None
  }

  function ReadLayers(ns: seq<Node>): Option<seq<LayerEntry>> {
    if |ns| == 0 then Some([])
    else match (ReadLayer(ns[0]), ReadLayers(ns[1..]))
      case (Some(e), Some(es)) => Some([e] + es)
      case _ => None
  }

  /** The number of leading elements that are not layers: the attribute elements. */
  function AttributeCount(ns: seq<Node>): (c: nat)
    ensures c <= |ns|
  {
    if |ns| == 0 || ns[0].tag == LayerElement then 0 else 1 + AttributeCount(ns[1..])
  }

  function ReadAttributes(ns: seq<Node>): seq<Entry> {
    seq(|ns|, i requires 0 <= i < |ns| => (ns[i].tag, ns[i].text))
  }

  function ReadInstrument(n: Node): Option<InstrumentEntry> {
    if n.tag != "instrument" || |n.children| < 3
      || n.children[0].tag != "id" || !Canonical(n.children[0].text)
      || n.children[1].tag != "name"
      || n.children[2].tag != "midiOutNote" || ParseInt(n.children[2].text).None?
    then None
    else
      var rest := n.children[3..];
      var c := AttributeCount(rest);
      var attributes := ReadAttributes(rest[..c]);
      if !DistinctKeys(attributes) then None
      else match ReadLayers(rest[c..])
        case None => None
        case Some(ls) =>
          Some(InstrumentEntry(ParseDigits(n.children[0].text), n.children[1].text,
                               ParseInt(n.children[2].text).value, attributes, ls))
  }

  function ReadInstruments(ns: seq<Node>): Option<seq<InstrumentEntry>> {
    if |ns| == 0 then Some([])
    else match (ReadInstrument(ns[0]), ReadInstruments(ns[1..]))
      case (Some(e), Some(es)) => Some([e] + es)
      case _ => None
  }

  /** Reads a `drumkit_info` tree back into the typed manifest. */
  function ReadManifest(n: Node): Option<KitManifest> {
    if n.tag != "drumkit_info" || |n.children| != 5
      || n.children[0].tag != "name" || n.children[1].tag != "author" || n.children[2].tag != "info"
      || n.children[3].tag != "license" || n.children[4].tag != "instrumentList"
    then None
    else match ReadInstruments(n.children[4].children)
      case None => None
      case Some(es) =>
        Some(KitManifest(n.children[0].text, n.children[1].text, n.children[2].text, n.children[3].text, es))
  }

  /** A manifest whose attribute elements cannot be mistaken for layers. */
  predicate Unambiguous(m: KitManifest) {
    forall k :: 0 <= k < |m.instruments| ==> LayerElement !in Keys(m.instruments[k].attributes)
  }

  lemma {:induction false} LayersRoundTrip(ls: seq<LayerEntry>)
    ensures ReadLayers(LayersXml(ls)) == Some(ls)
  {
    if |ls| > 0 {
      assert LayersXml(ls)[1..] == LayersXml(ls[1..]);
      LayersRoundTrip(ls[1..]);
      assert [ls[0]] + ls[1..] == ls;
    }
  }

  lemma {:induction false} AttributeCountStopsAtLayers(a: seq<Entry>, ls: seq<LayerEntry>)
    requires LayerElement !in Keys(a)
    ensures AttributeCount(AttributeXml(a) + LayersXml(ls)) == |a|
  {
    var ns := AttributeXml(a) + LayersXml(ls);
    if |a| > 0 {
      assert ns[0].tag == a[0].0 == Keys(a)[0];
      assert ns[1..] == AttributeXml(a[1..]) + LayersXml(ls);
      assert Keys(a[1..]) == Keys(a)[1..];
      AttributeCountStopsAtLayers(a[1..], ls);
    } else {
      assert ns == LayersXml(ls);
    }
  }

  lemma InstrumentRoundTrip(e: InstrumentEntry)
    requires LayerElement !in Keys(e.attributes)
    ensures ReadInstrument(InstrumentXml(e)) == Some(e)
  {
    var n := InstrumentXml(e);
    var rest := n.children[3..];
    assert rest == AttributeXml(e.attributes) + LayersXml(e.layers);
    AttributeCountStopsAtLayers(e.attributes, e.layers);
    assert rest[..|e.attributes|] == AttributeXml(e.attributes);
    assert ReadAttributes(AttributeXml(e.attributes)) == e.attributes;
    assert rest[|e.attributes|..] == LayersXml(e.layers);
    LayersRoundTrip(e.layers);
  }

  /** Nodes that each read back as an entry read back, as a list, as those entries. */
  lemma {:induction false} ReadEachInstrument(ns: seq<Node>, es: seq<InstrumentEntry>)
    requires |ns| == |es| && forall k :: 0 <= k < |ns| ==> ReadInstrument(ns[k]) == Some(es[k])
    ensures ReadInstruments(ns) == Some(es)
  {
    if |ns| > 0 {
      ReadEachInstrument(ns[1..], es[1..]);
      assert [es[0]] + es[1..] == es;
    }
  }

  lemma InstrumentsRoundTrip(es: seq<InstrumentEntry>)
    requires forall k :: 0 <= k < |es| ==> LayerElement !in Keys(es[k].attributes)
    ensures ReadInstruments(InstrumentsXml(es)) == Some(es)
  {
    var ns := InstrumentsXml(es);
    forall k | 0 <= k < |es| ensures ReadInstrument(ns[k]) == Some(es[k]) {
      InstrumentRoundTrip(es[k]);
    }
    ReadEachInstrument(ns, es);
  }

  /** Reading the written tree gives back the manifest it was written from. */
  lemma ManifestRoundTrip(m: KitManifest)
    requires Unambiguous(m)
    ensures ReadManifest(ManifestXml(m)) == Some(m)
  {
    InstrumentsRoundTrip(m.instruments);
  }
}

=== FILE: midi_preview.dfy ===
/**
 * `create_midi`: a preview track that strikes every layer of every
 * instrument once, at the layer's velocity on the drum channel, with a
 * marker naming each instrument and a closing "End" marker.
 */
module MidiPreview {
  import opened Wrappers
  import opened KitConfig
  import opened Timeline

  /** The track events the program appends; meta events carry delta time 0. */
  datatype MidiEvent =
    | TimeSignature(numerator: nat, denominator: nat)
    | SetTempo(bpm: nat)
    | NoteOn(channel: nat, note: int, velocity: int, time: int)
    | NoteOff(channel: nat, note: int, time: int)
    | Marker(text: Option<string>)   // the `display` value, which may be missing

  const DrumChannel := 9
  const TicksPerBeat := 48
  const NoteTicks := 24   // one eighth note at 48 ticks per beat
  const Bpm := 120
  const MidiExtension := ".mid"

  datatype MidiFile = MidiFile(path: string, ticksPerBeat: nat, track: seq<MidiEvent>)

  /** With no instruments the closing note_off names a `note` that was never bound. */
  datatype MidiError = NoInstruments

  /** `(eigths - 1) * 24`: the delta before the note_on that follows a layer of `ins`. */
  function RestTicks(ins: InstrumentSpec): int {
    (Eighths(ins.lengthMs) - 1) * NoteTicks
  }

  /** The events of layer l: note_on, the display marker on the first layer only, note_off. */
  function LayerBlock(ins: InstrumentSpec, l: nat, time: int): seq<MidiEvent>
    requires l < |ins.layers|
  {
    [NoteOn(DrumChannel, ins.note, ins.layers[l], time)]
      + (if l == 0 then [Marker(ins.display)] else [])
      + [NoteOff(DrumChannel, ins.note, NoteTicks)]
  }

  /** The inner loop from layer l on; `time` is the running `start_offset`. */
  function LayerEvents(ins: InstrumentSpec, l: nat, time: int): seq<MidiEvent>
    decreases |ins.layers| - l
  {
    if l >= |ins.layers| then []
    else LayerBlock(ins, l, time) + LayerEvents(ins, l + 1, RestTicks(ins))
  }

  /** `start_offset` after an instrument: reset by every layer, untouched without layers. */
  function TimeAfter(ins: InstrumentSpec, time: int): int {
    if |ins.layers| == 0 then time else RestTicks(ins)
  }

  /** The outer loop. */
  function BodyEvents(instrs: seq<InstrumentSpec>, time: int): seq<MidiEvent>
    decreases |instrs|
  {
    if |instrs| == 0 then []
    else LayerEvents(instrs[0], 0, time) + BodyEvents(instrs[1..], TimeAfter(instrs[0], time))
  }

  function FinalTime(instrs: seq<InstrumentSpec>, time: int): int
    decreases |instrs|
  {
    if |instrs| == 0 then time else FinalTime(instrs[1..], TimeAfter(instrs[0], time))
  }

  /**
   * `create_midi`: fails exactly when there is no instrument; otherwise the
   * track opens with 4/4 time and 120 BPM and closes with a note_off of the
   * last instrument's note followed by the "End" marker.
   */
  function CreateMidi(cfg: KitSpec): (r: Result<MidiFile, MidiError>)
    ensures r.Failure? <==> cfg.instruments.GetOr([]) == []
    ensures r.Success? ==>
      var t := r.value.track;
      var instrs := cfg.instruments.value;
      && r.value.ticksPerBeat == TicksPerBeat
      && |t| >= 4
      && t[0] == TimeSignature(4, 4) && t[1] == SetTempo(Bpm)
      && t[|t| - 1] == Marker(Some("End"))
      && t[|t| - 2].NoteOff? && t[|t| - 2].channel == DrumChannel
      && t[|t| - 2].note == instrs[|instrs| - 1].note
  {
    var instrs := cfg.instruments.GetOr([]);
    if |instrs| == 0 then Failure(NoInstruments)
    else
      var closing := NoteOff(DrumChannel, instrs[|instrs| - 1].note, FinalTime(instrs, 0) + NoteTicks);
      Success(MidiFile(
        JoinPath(MediaHome, cfg.kitCode.GetOr("default") + MidiExtension),
        TicksPerBeat,
        [TimeSignature(4, 4), SetTempo(Bpm)] + BodyEvents(instrs, 0) + [closing, Marker(Some("End"))]))
  }

  // ---- What the track holds, stated without the loops ----

  /**
   * One strike of one layer: its note, its velocity, the rest that follows
   * it, whether it opens its instrument, and the instrument's display name (its title).
   */
  datatype Hit = Hit(note: int, velocity: int, rest: int, opens: bool, title: Option<string>)

  function InstrumentHits(ins: InstrumentSpec): (hs: seq<Hit>)
    ensures |hs| == |ins.layers|
  {
    seq(|ins.layers|, l requires 0 <= l < |ins.layers| => Hit(ins.note, ins.layers[l], RestTicks(ins), l == 0, ins.display))
  }

  /** Every (instrument, layer) pair in declared order. */
  function Hits(instrs: seq<InstrumentSpec>): seq<Hit> {
    if |instrs| == 0 then [] else InstrumentHits(instrs[0]) + Hits(instrs[1..])
  }

  /**
   * The note_on events one per hit: hit g sounds its note at its velocity on
   * the drum channel, after `first` for the first hit and after the rest of
   * hit g - 1 for every other.
   */
  function ExpectedNoteOns(hits: seq<Hit>, first: int): (es: seq<MidiEvent>)
    ensures |es| == |hits|
  {
    seq(|hits|, g requires 0 <= g < |hits| =>
      NoteOn(DrumChannel, hits[g].note, hits[g].velocity, if g == 0 then first else hits[g - 1].rest))
  }

  function LastRest(hits: seq<Hit>, first: int): int {
    if |hits| == 0 then first else hits[|hits| - 1].rest
  }

  /** The note_off events one per hit, each 24 ticks after its note_on. */
  function ExpectedNoteOffs(hits: seq<Hit>): (es: seq<MidiEvent>)
    ensures |es| == |hits|
  {
    seq(|hits|, g requires 0 <= g < |hits| => NoteOff(DrumChannel, hits[g].note, NoteTicks))
  }

  /** The display markers, one per instrument that has at least one layer. */
  function ExpectedMarkers(instrs: seq<InstrumentSpec>): seq<MidiEvent> {
    if |instrs| == 0 then []
    else (if |instrs[0].layers| > 0 then [Marker(instrs[0].display)] else []) + ExpectedMarkers(instrs[1..])
  }

  predicate IsNoteOn(e: MidiEvent) { e.NoteOn? }
  predicate IsNoteOff(e: MidiEvent) { e.NoteOff? }
  predicate IsMarker(e: MidiEvent) { e.Marker? }

  /** The events `keep` accepts, in order. */
  function Select(events: seq<MidiEvent>, keep: MidiEvent -> bool): seq<MidiEvent> {
    if |events| == 0 then []
    else (if keep(events[0]) then [events[0]] else []) + Select(events[1..], keep)
  }

  lemma {:induction false} SelectConcat(a: seq<MidiEvent>, b: seq<MidiEvent>, keep: MidiEvent -> bool)
    ensures Select(a + b, keep) == Select(a, keep) + Select(b, keep)
  {
    if |a| > 0 {
      assert (a + b)[1..] == a[1..] + b;
      SelectConcat(a[1..], b, keep);
    } else {
      assert a + b == b;
    }
  }

  lemma ExpectedNoteOnsConcat(a: seq<Hit>, b: seq<Hit>, first: int)
    ensures ExpectedNoteOns(a + b, first) == ExpectedNoteOns(a, first) + ExpectedNoteOns(b, LastRest(a, first))
    ensures LastRest(a + b, first) == LastRest(b, LastRest(a, first))
  {
    var lhs := ExpectedNoteOns(a + b, first);
    var rhs := ExpectedNoteOns(a, first) + ExpectedNoteOns(b, LastRest(a, first));
    forall g | 0 <= g < |lhs| ensures lhs[g] == rhs[g] {
      if g >= |a| {
        assert (a + b)[g] == b[g - |a|];
        if g > |a| {
          assert (a + b)[g - 1] == b[g - 1 - |a|];
        } else if g > 0 {
          assert (a + b)[g - 1] == a[|a| - 1];
        }
      } else {
        assert (a + b)[g] == a[g];
        if g > 0 {
          assert (a + b)[g - 1] == a[g - 1];
        }
      }
    }
  }

  lemma ExpectedNoteOffsConcat(a: seq<Hit>, b: seq<Hit>)
    ensures ExpectedNoteOffs(a + b) == ExpectedNoteOffs(a) + ExpectedNoteOffs(b)
  {
  }

  /** What each projection keeps of one layer's block. */
  lemma BlockSelect(ins: InstrumentSpec, l: nat, time: int)
    requires l < |ins.layers|
    ensures Select(LayerBlock(ins, l, time), IsNoteOn) == [NoteOn(DrumChannel, ins.note, ins.layers[l], time)]
    ensures Select(LayerBlock(ins, l, time), IsNoteOff) == [NoteOff(DrumChannel, ins.note, NoteTicks)]
    ensures Select(LayerBlock(ins, l, time), IsMarker) == if l == 0 then [Marker(ins.display)] else []
    ensures |LayerBlock(ins, l, time)| == if l == 0 then 3 else 2
  {
    var block := LayerBlock(ins, l, time);
    if l == 0 {
      assert block == [block[0]] + [block[1]] + [block[2]];
      SelectConcat([block[0]] + [block[1]], [block[2]], IsNoteOn);
      SelectConcat([block[0]], [block[1]], IsNoteOn);
      SelectConcat([block[0]] + [block[1]], [block[2]], IsNoteOff);
      SelectConcat([block[0]], [block[1]], IsNoteOff);
      SelectConcat([block[0]] + [block[1]], [block[2]], IsMarker);
      SelectConcat([block[0]], [block[1]], IsMarker);
    } else {
      assert block == [block[0]] + [block[1]];
      SelectConcat([block[0]], [block[1]], IsNoteOn);
      SelectConcat([block[0]], [block[1]], IsNoteOff);
      SelectConcat([block[0]], [block[1]], IsMarker);
    }
  }

  lemma LayerNoteOns(ins: InstrumentSpec, l: nat, time: int)
    requires l <= |ins.layers|
    ensures Select(LayerEvents(ins, l, time), IsNoteOn) == ExpectedNoteOns(InstrumentHits(ins)[l..], time)
  {
    LayerEventsAreStrikes(ins, l, time);
    StrikesNoteOns(InstrumentHits(ins)[l..], time);
  }

  lemma LayerNoteOffs(ins: InstrumentSpec, l: nat, time: int)
    requires l <= |ins.layers|
    ensures Select(LayerEvents(ins, l, time), IsNoteOff) == ExpectedNoteOffs(InstrumentHits(ins)[l..])
  {
    LayerEventsAreStrikes(ins, l, time);
    StrikesNoteOffs(InstrumentHits(ins)[l..], time);
  }

  lemma {:induction false} LayerMarkersAndLength(ins: InstrumentSpec, l: nat, time: int)
    requires l <= |ins.layers|
    ensures Select(LayerEvents(ins, l, time), IsMarker) == if l == 0 < |ins.layers| then [Marker(ins.display)] else []
    ensures |LayerEvents(ins, l, time)| == 2 * (|ins.layers| - l) + (if l == 0 < |ins.layers| then 1 else 0)
    decreases |ins.layers| - l
  {
    if l < |ins.layers| {
      LayerMarkersAndLength(ins, l + 1, RestTicks(ins));
      BlockSelect(ins, l, time);
      SelectConcat(LayerBlock(ins, l, time), LayerEvents(ins, l + 1, RestTicks(ins)), IsMarker);
    }
  }

  lemma {:induction false} BodyContent(instrs: seq<InstrumentSpec>, time: int)
    ensures Select(BodyEvents(instrs, time), IsNoteOn) == ExpectedNoteOns(Hits(instrs), time)
    ensures Select(BodyEvents(instrs, time), IsNoteOff) == ExpectedNoteOffs(Hits(instrs))
    ensures Select(BodyEvents(instrs, time), IsMarker) == ExpectedMarkers(instrs)
    ensures |BodyEvents(instrs, time)| == 2 * |Hits(instrs)| + |ExpectedMarkers(instrs)|
    ensures FinalTime(instrs, time) == LastRest(Hits(instrs), time)
    decreases |instrs|
  {
    if |instrs| > 0 {
      var ins := instrs[0];
      var next := TimeAfter(ins, time);
      BodyContent(instrs[1..], next);
      LayerNoteOns(ins, 0, time);
      LayerNoteOffs(ins, 0, time);
      LayerMarkersAndLength(ins, 0, time);
      var head := LayerEvents(ins, 0, time);
      var tail := BodyEvents(instrs[1..], next);
      SelectConcat(head, tail, IsNoteOn);
      SelectConcat(head, tail, IsNoteOff);
      SelectConcat(head, tail, IsMarker);
      assert InstrumentHits(ins)[0..] == InstrumentHits(ins);
      assert next == LastRest(InstrumentHits(ins), time);
      ExpectedNoteOnsConcat(InstrumentHits(ins), Hits(instrs[1..]), time);
      ExpectedNoteOffsConcat(InstrumentHits(ins), Hits(instrs[1..]));
    }
  }

  /**
   * The whole track: exactly one note_on per (instrument, layer) in declared
   * order, each at that layer's velocity on the drum channel, the first at
   * time 0 and each later one after the previous layer's instrument's rest;
   * one note_off of 24 ticks per layer; one display marker per instrument
   * with layers; and a closing note_off 24 ticks after the last rest.
   */
  lemma MidiTrackContent(cfg: KitSpec)
    requires CreateMidi(cfg).Success?
    ensures var t := CreateMidi(cfg).value.track;
      var hits := Hits(cfg.instruments.value);
      && Select(t, IsNoteOn) == ExpectedNoteOns(hits, 0)
      && Select(t, IsNoteOff) == ExpectedNoteOffs(hits) + [t[|t| - 2]]
      && Select(t, IsMarker) == ExpectedMarkers(cfg.instruments.value) + [Marker(Some("End"))]
      && t[|t| - 2].time == LastRest(hits, 0) + NoteTicks
      && |t| == 4 + 2 * |hits| + |ExpectedMarkers(cfg.instruments.value)|
  {
    var instrs := cfg.instruments.value;
    var t := CreateMidi(cfg).value.track;
    var header := [TimeSignature(4, 4), SetTempo(Bpm)];
    var body := BodyEvents(instrs, 0);
    var trailer := [t[|t| - 2], Marker(Some("End"))];
    assert t == header + body + trailer;
    BodyContent(instrs, 0);
    assert header == [header[0]] + [header[1]];
    SelectConcat([header[0]], [header[1]], IsNoteOn);
    SelectConcat([header[0]], [header[1]], IsNoteOff);
    SelectConcat([header[0]], [header[1]], IsMarker);
    assert trailer == [trailer[0]] + [trailer[1]];
    SelectConcat([trailer[0]], [trailer[1]], IsNoteOn);
    SelectConcat([trailer[0]], [trailer[1]], IsNoteOff);
    SelectConcat([trailer[0]], [trailer[1]], IsMarker);
    SelectConcat(header + body, trailer, IsNoteOn);
    SelectConcat(header, body, IsNoteOn);
    SelectConcat(header + body, trailer, IsNoteOff);
    SelectConcat(header, body, IsNoteOff);
    SelectConcat(header + body, trailer, IsMarker);
    SelectConcat(header, body, IsMarker);
  }

  // ---- The track as one flat run of strikes ----

  /** The events of one strike: note_on, the title marker if it opens its instrument, note_off. */
  function Strike(h: Hit, time: int): seq<MidiEvent> {
    [NoteOn(DrumChannel, h.note, h.velocity, time)]
      + (if h.opens then [Marker(h.title)] else [])
      + [NoteOff(DrumChannel, h.note, NoteTicks)]
  }

  /** All strikes in order, each note_on after the rest of the strike before it. */
  function Strikes(hits: seq<Hit>, first: int): seq<MidiEvent> {
    if |hits| == 0 then [] else Strike(hits[0], first) + Strikes(hits[1..], hits[0].rest)
  }

  lemma {:induction false} StrikesConcat(a: seq<Hit>, b: seq<Hit>, first: int)
    ensures Strikes(a + b, first) == Strikes(a, first) + Strikes(b, LastRest(a, first))
  {
    if |a| > 0 {
      assert (a + b)[0] == a[0];
      assert (a + b)[1..] == a[1..] + b;
      StrikesConcat(a[1..], b, a[0].rest);
      assert LastRest(a[1..], a[0].rest) == LastRest(a, first);
    } else {
      assert a + b == b;
    }
  }

  /** What each projection keeps of one strike. */
  lemma StrikeSelect(h: Hit, time: int)
    ensures Select(Strike(h, time), IsNoteOn) == [NoteOn(DrumChannel, h.note, h.velocity, time)]
    ensures Select(Strike(h, time), IsNoteOff) == [NoteOff(DrumChannel, h.note, NoteTicks)]
  {
    var on := [NoteOn(DrumChannel, h.note, h.velocity, time)];
    var mid: seq<MidiEvent> := if h.opens then [Marker(h.title)] else [];
    var off := [NoteOff(DrumChannel, h.note, NoteTicks)];
    if h.opens {
      assert mid[1..] == [] && !IsNoteOn(mid[0]) && !IsNoteOff(mid[0]);
      assert Select(mid, IsNoteOn) == [];
      assert Select(mid, IsNoteOff) == [];
    }
    SelectConcat(on + mid, off, IsNoteOn);
    SelectConcat(on, mid, IsNoteOn);
    SelectConcat(on + mid, off, IsNoteOff);
    SelectConcat(on, mid, IsNoteOff);
  }

  /** The note_on list of a run of strikes, split after its first hit. */
  lemma ExpectedNoteOnsCons(hits: seq<Hit>, first: int)
    requires |hits| > 0
    ensures ExpectedNoteOns(hits, first)
      == [NoteOn(DrumChannel, hits[0].note, hits[0].velocity, first)] + ExpectedNoteOns(hits[1..], hits[0].rest)
  {
    var rhs := [NoteOn(DrumChannel, hits[0].note, hits[0].velocity, first)] + ExpectedNoteOns(hits[1..], hits[0].rest);
    forall g | 0 <= g < |hits| ensures ExpectedNoteOns(hits, first)[g] == rhs[g] {
      if g > 1 {
        assert hits[1..][g - 2] == hits[g - 1];
      }
    }
  }

  lemma {:induction false} StrikesNoteOns(hits: seq<Hit>, first: int)
    ensures Select(Strikes(hits, first), IsNoteOn) == ExpectedNoteOns(hits, first)
  {
    if |hits| > 0 {
      StrikesNoteOns(hits[1..], hits[0].rest);
      StrikeSelect(hits[0], first);
      SelectConcat(Strike(hits[0], first), Strikes(hits[1..], hits[0].rest), IsNoteOn);
      ExpectedNoteOnsCons(hits, first);
    }
  }

  lemma {:induction false} StrikesNoteOffs(hits: seq<Hit>, first: int)
    ensures Select(Strikes(hits, first), IsNoteOff) == ExpectedNoteOffs(hits)
  {
    if |hits| > 0 {
      StrikesNoteOffs(hits[1..], hits[0].rest);
      StrikeSelect(hits[0], first);
      SelectConcat(Strike(hits[0], first), Strikes(hits[1..], hits[0].rest), IsNoteOff);
      assert ExpectedNoteOffs(hits) == [NoteOff(DrumChannel, hits[0].note, NoteTicks)] + ExpectedNoteOffs(hits[1..]);
    }
  }

  lemma {:induction false} LayerEventsAreStrikes(ins: InstrumentSpec, l: nat, time: int)
    requires l <= |ins.layers|
    ensures LayerEvents(ins, l, time) == Strikes(InstrumentHits(ins)[l..], time)
    decreases |ins.layers| - l
  {
    var hs := InstrumentHits(ins);
    if l < |ins.layers| {
      LayerEventsAreStrikes(ins, l + 1, RestTicks(ins));
      assert hs[l..][0] == hs[l] && hs[l..][1..] == hs[l + 1..];
      assert LayerBlock(ins, l, time) == Strike(hs[l], time);
    } else {
      assert hs[l..] == [];
    }
  }

  lemma {:induction false} BodyIsStrikes(instrs: seq<InstrumentSpec>, time: int)
    ensures BodyEvents(instrs, time) == Strikes(Hits(instrs), time)
    ensures FinalTime(instrs, time) == LastRest(Hits(instrs), time)
    decreases |instrs|
  {
    if |instrs| > 0 {
      var ins := instrs[0];
      BodyIsStrikes(instrs[1..], TimeAfter(ins, time));
      LayerEventsAreStrikes(ins, 0, time);
      assert InstrumentHits(ins)[0..] == InstrumentHits(ins);
      assert TimeAfter(ins, time) == LastRest(InstrumentHits(ins), time);
      StrikesConcat(InstrumentHits(ins), Hits(instrs[1..]), time);
      ExpectedNoteOnsConcat(InstrumentHits(ins), Hits(instrs[1..]), time);
    }
  }

  /**
   * The whole track in order: the 4/4 and 120 BPM header, then one strike
   * per (instrument, layer) in declared order (note_on at the layer's
   * velocity, the instrument's display marker on its first layer, a 24-tick
   * note_off; the first note_on at time 0 and each later one after the
   * previous strike's rest), then the closing note_off 24 ticks after the
   * last rest and the "End" marker.
   */
  lemma MidiTrackOrder(cfg: KitSpec)
    requires CreateMidi(cfg).Success?
    ensures var instrs := cfg.instruments.value;
      var hits := Hits(instrs);
      CreateMidi(cfg).value.track
        == [TimeSignature(4, 4), SetTempo(Bpm)] + Strikes(hits, 0)
           + [NoteOff(DrumChannel, instrs[|instrs| - 1].note, LastRest(hits, 0) + NoteTicks), Marker(Some("End"))]
  {
    BodyIsStrikes(cfg.instruments.value, 0);
  }

  /** In a run of strikes, a note_on is followed by its 24-tick note_off, directly or after one marker. */
  lemma {:induction false} StrikesAdjacency(hits: seq<Hit>, first: int, p: nat)
    requires p < |Strikes(hits, first)| && Strikes(hits, first)[p].NoteOn?
    ensures var s := Strikes(hits, first);
      var off := NoteOff(DrumChannel, s[p].note, NoteTicks);
      p + 1 < |s| && (s[p + 1] == off || (s[p + 1].Marker? && p + 2 < |s| && s[p + 2] == off))
  {
    var block := Strike(hits[0], first);
    var rest := Strikes(hits[1..], hits[0].rest);
    var s := block + rest;
    if p >= |block| {
      assert s[p] == rest[p - |block|];
      StrikesAdjacency(hits[1..], hits[0].rest, p - |block|);
      assert s[p + 1] == rest[p - |block| + 1];
      if p + 2 < |s| {
        assert s[p + 2] == rest[p - |block| + 2];
      }
    } else if hits[0].opens {
      assert block == [block[0], block[1], block[2]];
    } else {
      assert block == [block[0], block[1]];
    }
  }

  /**
   * Every note_on of the track is directly followed by its 24-tick
   * note_off, or by a marker and then that note_off.
   */
  lemma NoteOnFollowedByNoteOff(cfg: KitSpec, p: nat)
    requires CreateMidi(cfg).Success?
    requires p < |CreateMidi(cfg).value.track| && CreateMidi(cfg).value.track[p].NoteOn?
    ensures var t := CreateMidi(cfg).value.track;
      var off := NoteOff(DrumChannel, t[p].note, NoteTicks);
      p + 1 < |t| && (t[p + 1] == off || (t[p + 1].Marker? && p + 2 < |t| && t[p + 2] == off))
  {
    var instrs := cfg.instruments.value;
    var t := CreateMidi(cfg).value.track;
    var hits := Hits(instrs);
    var s := Strikes(hits, 0);
    MidiTrackOrder(cfg);
    var closing := NoteOff(DrumChannel, instrs[|instrs| - 1].note, LastRest(hits, 0) + NoteTicks);
    assert t == [TimeSignature(4, 4), SetTempo(Bpm)] + s + [closing, Marker(Some("End"))];
    assert 2 <= p < 2 + |s|;
    assert t[p] == s[p - 2];
    StrikesAdjacency(hits, 0, p - 2);
    assert t[p + 1] == s[p - 1];
    if p < |s| {
      assert t[p + 2] == s[p];
    }
  }

  /**
   * An instrument with layers opens its events with the first layer's
   * note_on, then its display marker, then that layer's 24-tick note_off.
   */
  lemma MarkerFollowsFirstNoteOn(ins: InstrumentSpec, time: int)
    requires |ins.layers| > 0
    ensures var es := LayerEvents(ins, 0, time);
      && |es| >= 3
      && es[0] == NoteOn(DrumChannel, ins.note, ins.layers[0], time)
      && es[1] == Marker(ins.display)
      && es[2] == NoteOff(DrumChannel, ins.note, NoteTicks)
  {
  }

  /**
   * One instrument (note 36, layers 50 and 100, 300 ms samples): note_on,
   * marker, note_off, note_on after a rest of one eighth, note_off, then the
   * closing note_off and "End".
   */
  lemma SingleInstrumentExample()
    ensures var kick := InstrumentSpec("kick", Some("Kick"), 36, 300, [50, 100], []);
      var cfg := KitSpec(Some("demo"), map[], [], Some([kick]));
      CreateMidi(cfg) == Success(MidiFile("media/demo.mid", 48,
        [TimeSignature(4, 4), SetTempo(120),
         NoteOn(9, 36, 50, 0), Marker(Some("Kick")), NoteOff(9, 36, 24),
         NoteOn(9, 36, 100, 24), NoteOff(9, 36, 24),
         NoteOff(9, 36, 48), Marker(Some("End"))]))
  {
    var kick := InstrumentSpec("kick", Some("Kick"), 36, 300, [50, 100], []);
    assert Eighths(300) == 2;
    assert LayerEvents(kick, 2, 24) == [];
    assert LayerEvents(kick, 1, 24) == [NoteOn(9, 36, 100, 24), NoteOff(9, 36, 24)];
    assert BodyEvents([kick], 0) == LayerEvents(kick, 0, 0) + BodyEvents([], 24);
    assert FinalTime([kick], 0) == 24;
    assert JoinPath("media", "demo" + MidiExtension) == "media/demo.mid";
    var cfg := KitSpec(Some("demo"), map[], [], Some([kick]));
    var t := CreateMidi(cfg).value.track;
    assert LayerEvents(kick, 0, 0) == [NoteOn(9, 36, 50, 0), Marker(Some("Kick")), NoteOff(9, 36, 24)] + LayerEvents(kick, 1, 24);
    assert BodyEvents([kick], 0) == [NoteOn(9, 36, 50, 0), Marker(Some("Kick")), NoteOff(9, 36, 24),
      NoteOn(9, 36, 100, 24), NoteOff(9, 36, 24)];
    assert t == [TimeSignature(4, 4), SetTempo(120)] + BodyEvents([kick], 0) + [NoteOff(9, 36, 48), Marker(Some("End"))];
    assert t == [TimeSignature(4, 4), SetTempo(120),
         NoteOn(9, 36, 50, 0), Marker(Some("Kick")), NoteOff(9, 36, 24),
         NoteOn(9, 36, 100, 24), NoteOff(9, 36, 24),
         NoteOff(9, 36, 48), Marker(Some("End"))];
  }
}

=== FILE: staging.dfy ===
/**
 * `os.makedirs(os.path.join(TMP.name, kit_code))` on a fresh, empty
 * temporary directory TMP. The path is split into its '/'-separated
 * segments; makedirs splits off the last one, first creates a missing
 * parent (ignoring a FileExistsError from it), and then makes the leaf
 * directory. Path lookup follows POSIX: "." stays, ".." goes to the
 * parent, and a name must exist before the lookup can pass through it.
 */
module Staging {
  import opened Wrappers

  // ---- Path text ----

  /** The index of the first '/' in s. */
  function FirstSlash(s: string): (i: nat)
    requires '/' in s
    ensures i < |s| && s[i] == '/' && '/' !in s[..i]
  {
    if s[0] == '/' then 0
    else
      var j := FirstSlash(s[1..]);
      assert s[..j + 1] == [s[0]] + s[1..][..j];
      j + 1
  }

  /** `s.split('/')`: the pieces between slashes, empty pieces included. */
  function Segments(s: string): (r: seq<string>)
    ensures |r| >= 1
    ensures forall i :: 0 <= i < |r| ==> '/' !in r[i]
    decreases |s|
  {
    if '/' !in s then [s]
    else
      var i := FirstSlash(s);
      [s[..i]] + Segments(s[i + 1..])
  }

  /** `'/'.join(r)`. */
  function JoinSegments(r: seq<string>): string
    requires |r| >= 1
  {
    if |r| == 1 then r[0] else r[0] + "/" + JoinSegments(r[1..])
  }

  /** Joining the segments gives back the text. */
  lemma {:induction false} SegmentsJoin(s: string)
    ensures JoinSegments(Segments(s)) == s
    decreases |s|
  {
    if '/' in s {
      var i := FirstSlash(s);
      SegmentsJoin(s[i + 1..]);
      assert Segments(s)[1..] == Segments(s[i + 1..]);
      assert s == s[..i] + "/" + s[i + 1..];
    }
  }

  lemma {:induction false} FirstSlashAfter(a: string, b: string)
    requires '/' !in a
    ensures '/' in a + "/" + b && FirstSlash(a + "/" + b) == |a|
  {
    var s := a + "/" + b;
    assert s[|a|] == '/';
    if |a| > 0 {
      assert s[1..] == a[1..] + "/" + b;
      FirstSlashAfter(a[1..], b);
    }
  }

  /** Splitting slash-free pieces joined with '/' gives back the pieces. */
  lemma {:induction false} JoinSegmentsSplits(r: seq<string>)
    requires |r| >= 1 && forall i :: 0 <= i < |r| ==> '/' !in r[i]
    ensures Segments(JoinSegments(r)) == r
  {
    if |r| > 1 {
      var rest := JoinSegments(r[1..]);
      var s := r[0] + "/" + rest;
      JoinSegmentsSplits(r[1..]);
      FirstSlashAfter(r[0], rest);
      assert s[..|r[0]|] == r[0] && s[|r[0]| + 1..] == rest;
      assert [r[0]] + r[1..] == r;
    } else {
      assert JoinSegments(r) == r[0];
    }
  }

  /** The non-empty segments: the names a lookup walks through. */
  function Components(p: seq<string>): seq<string> {
    if |p| == 0 then []
    else Components(p[..|p| - 1]) + (if p[|p| - 1] == "" then [] else [p[|p| - 1]])
  }

  /** `rstrip('/')` of a head: drops trailing empty segments. */
  function TrimEmpty(p: seq<string>): (r: seq<string>)
    ensures |r| <= |p| && r == p[..|r|]
    ensures |r| > 0 ==> r[|r| - 1] != ""
    ensures Components(r) == Components(p)
  {
    if |p| == 0 || p[|p| - 1] != "" then p
    else
      var r := TrimEmpty(p[..|p| - 1]);
      assert p[..|p| - 1][..|r|] == p[..|r|];
      r
  }

  /**
   * `posixpath.split`, applied once more to the head when the tail is empty
   * (a trailing slash), as makedirs does. An empty head is the directory
   * the path starts from: the staging directory, or the root.
   */
  function HeadTail(p: seq<string>): (ht: (seq<string>, string))
    requires |p| > 0
    ensures |ht.0| < |p|
    ensures |ht.0| > 0 ==> ht.0[|ht.0| - 1] != ""
    ensures ht.1 != "" ==> Components(p) == Components(ht.0) + [ht.1]
    ensures ht.1 == "" ==> ht.0 == [] && Components(p) == []
  {
    var h := TrimEmpty(p[..|p| - 1]);
    var t := p[|p| - 1];
    if t == "" && |h| > 0 then (TrimEmpty(h[..|h| - 1]), h[|h| - 1]) else (h, t)
  }

  // ---- Looking paths up ----

  /**
   * A directory reached by a lookup: one below the staging directory
   * (`Inside([])` is the staging directory itself), or one of the
   * directories from the file system root down to the staging directory's
   * parent, which all exist.
   */
  datatype Place = Inside(dir: seq<string>) | Above

  /** Unknown: the lookup passed through a named entry outside the staging directory. */
  datatype Resolution = Found(place: Place) | Missing | Unknown

  /** The directories that exist below the staging directory, by component list. */
  type Tree = set<seq<string>>

  /** Only the staging directory itself, as `tempfile.TemporaryDirectory()` leaves it. */
  const Fresh: Tree := {[]}

  function Parent(at: Place): Place {
    match at
    case Inside(d) => if |d| == 0 then Above else Inside(d[..|d| - 1])
    case Above => Above
  }

  function Step(fs: Tree, at: Place, c: string): Resolution {
    if c == "." then Found(at)
    else if c == ".." then Found(Parent(at))
    else
      match at
      case Above => Unknown
      case Inside(d) => if d + [c] in fs then Found(Inside(d + [c])) else Missing
  }

  function Walk(fs: Tree, start: Place, cs: seq<string>): Resolution {
    if |cs| == 0 then Found(start)
    else
      match Walk(fs, start, cs[..|cs| - 1])
      case Found(at) => Step(fs, at, cs[|cs| - 1])
      case other => other
  }

  /** `os.path.exists`; None when the answer depends on entries outside the staging directory. */
  function Exists(fs: Tree, start: Place, p: seq<string>): Option<bool> {
    match Walk(fs, start, Components(p))
    case Found(_) => Some(true)
    case Missing => Some(false)
    case Unknown => None
  }

  // ---- Making directories ----

  datatype Errno = FileExists | FileNotFound

  /**
   * What a call leaves behind: success, an exception (with the directories
   * made before it), or an outcome that depends on entries outside the
   * staging directory.
   */
  datatype Outcome = Done(fs: Tree) | Raised(errno: Errno, fs: Tree) | Undetermined

  /** `os.mkdir`: the leaf must be a new name in an existing directory. */
  function Mkdir(fs: Tree, start: Place, p: seq<string>): Outcome {
    var cs := Components(p);
    if |cs| == 0 then Raised(FileExists, fs)
    else
      var last := cs[|cs| - 1];
      match Walk(fs, start, cs[..|cs| - 1])
      case Unknown => Undetermined
      case Missing => Raised(FileNotFound, fs)
      case Found(at) =>
        if last == "." || last == ".." then Raised(FileExists, fs)
        else
          match at
          case Above => Undetermined
          case Inside(d) => if d + [last] in fs then Raised(FileExists, fs) else Done(fs + {d + [last]})
  }

  /**
   * `os.makedirs(name)` with `exist_ok` false: a missing head is made
   * first, a FileExistsError from it is ignored, a tail "." returns right
   * after the head, and otherwise the leaf is made with `os.mkdir`.
   */
  function MakeDirs(fs: Tree, start: Place, p: seq<string>): Outcome
    requires |p| > 0
    decreases |p|
  {
    var (h, t) := HeadTail(p);
    if |h| > 0 && t != "" then
      match Exists(fs, start, h)
      case None => Undetermined
      case Some(true) => Mkdir(fs, start, p)
      case Some(false) =>
        match MakeDirs(fs, start, h)
        case Undetermined => Undetermined
        case Raised(FileNotFound, fs1) => Raised(FileNotFound, fs1)
        case Raised(FileExists, fs1) => if t == "." then Done(fs1) else Mkdir(fs1, start, p)
        case Done(fs1) => if t == "." then Done(fs1) else Mkdir(fs1, start, p)
    else Mkdir(fs, start, p)
  }

  /** Where the lookup of `os.path.join(TMP.name, code)` starts: the staging directory, or the root. */
  function Start(code: string): Place {
    if |code| > 0 && code[0] == '/' then Above else Inside([])
  }

  /** Creating the staging directory of a kit code in a fresh temporary directory. */
  function Stage(code: string): Outcome {
    MakeDirs(Fresh, Start(code), Segments(code))
  }

  /** `os.makedirs` raises for this kit code. */
  predicate StagingFails(code: string) {
    Stage(code).Raised?
  }

  // ---- What makedirs guarantees ----

  lemma {:induction false} WalkMonotone(fs: Tree, fs': Tree, start: Place, cs: seq<string>)
    requires fs <= fs' && Walk(fs, start, cs).Found?
    ensures Walk(fs', start, cs) == Walk(fs, start, cs)
  {
    if |cs| > 0 {
      WalkMonotone(fs, fs', start, cs[..|cs| - 1]);
    }
  }

  /** A FileNotFoundError comes only from a missing parent; otherwise the path exists afterwards. */
  lemma MkdirEstablishes(fs: Tree, start: Place, p: seq<string>)
    ensures var o := Mkdir(fs, start, p);
      var cs := Components(p);
      && (o.Raised? && o.errno == FileNotFound ==> |cs| > 0 && Walk(fs, start, cs[..|cs| - 1]) == Missing)
      && (o.Done? || (o.Raised? && o.errno == FileExists) ==> fs <= o.fs && Exists(o.fs, start, p) == Some(true))
  {
    var cs := Components(p);
    var o := Mkdir(fs, start, p);
    if |cs| > 0 && o.Done? {
      WalkMonotone(fs, o.fs, start, cs[..|cs| - 1]);
    }
  }

  /**
   * `os.makedirs` never raises FileNotFoundError here, and when it returns
   * or raises FileExistsError, the path names an existing directory and no
   * directory has gone.
   */
  lemma {:induction false} MakeDirsEstablishes(fs: Tree, start: Place, p: seq<string>)
    requires |p| > 0
    ensures var o := MakeDirs(fs, start, p);
      && (o.Raised? ==> o.errno == FileExists)
      && (!o.Undetermined? ==> fs <= o.fs && Exists(o.fs, start, p) == Some(true))
    decreases |p|
  {
    var (h, t) := HeadTail(p);
    var cs := Components(p);
    if |h| > 0 && t != "" {
      if Exists(fs, start, h) == Some(false) {
        MakeDirsEstablishes(fs, start, h);
        AfterMadeHead(fs, start, p);
      } else {
        MkdirEstablishes(fs, start, p);
      }
    } else {
      MkdirEstablishes(fs, start, p);
      if t != "" {
        assert cs[..|cs| - 1] == [];
      }
    }
  }

  /** The step of MakeDirsEstablishes for a missing head that makedirs made first. */
  lemma AfterMadeHead(fs: Tree, start: Place, p: seq<string>)
    requires |p| > 0
    requires var (h, t) := HeadTail(p);
      && |h| > 0 && t != "" && Exists(fs, start, h) == Some(false)
      && var r := MakeDirs(fs, start, h);
         && (r.Raised? ==> r.errno == FileExists)
         && (!r.Undetermined? ==> fs <= r.fs && Exists(r.fs, start, h) == Some(true))
    ensures var o := MakeDirs(fs, start, p);
      && (o.Raised? ==> o.errno == FileExists)
      && (!o.Undetermined? ==> fs <= o.fs && Exists(o.fs, start, p) == Some(true))
  {
    var (h, t) := HeadTail(p);
    var cs := Components(p);
    var r := MakeDirs(fs, start, h);
    assert cs[..|cs| - 1] == Components(h);
    if !r.Undetermined? {
      if t == "." {
        assert Components(p) == Components(h) + ["."];
        assert Walk(r.fs, start, Components(p)) == Step(r.fs, Walk(r.fs, start, Components(h)).place, ".");
      } else {
        MkdirEstablishes(r.fs, start, p);
      }
    }
  }

  // ---- Kit codes made of plain names ----

  /** No component is "." or "..". */
  predicate Plain(cs: seq<string>) {
    forall i :: 0 <= i < |cs| ==> cs[i] != "." && cs[i] != ".."
  }

  /** Every existing directory's parent exists too. */
  predicate PrefixClosed(fs: Tree) {
    [] in fs && forall d :: d in fs && |d| > 0 ==> d[..|d| - 1] in fs
  }

  /** The directories along a component list, the list itself included. */
  function Prefixes(cs: seq<string>): set<seq<string>> {
    set i | 1 <= i <= |cs| :: cs[..i]
  }

  lemma {:induction false} PlainWalk(fs: Tree, cs: seq<string>)
    requires PrefixClosed(fs) && Plain(cs)
    ensures Walk(fs, Inside([]), cs) == if cs in fs then Found(Inside(cs)) else Missing
  {
    if |cs| > 0 {
      var init := cs[..|cs| - 1];
      PlainWalk(fs, init);
      assert init + [cs[|cs| - 1]] == cs;
    }
  }

  lemma PrefixesSnoc(cs: seq<string>, c: string)
    ensures Prefixes(cs + [c]) == Prefixes(cs) + {cs + [c]}
  {
    var ds := cs + [c];
    forall d | d in Prefixes(ds) ensures d in Prefixes(cs) + {ds} {
      var i :| 1 <= i <= |ds| && d == ds[..i];
      if i <= |cs| {
        assert ds[..i] == cs[..i];
      }
    }
    forall d | d in Prefixes(cs) ensures d in Prefixes(ds) {
      var i :| 1 <= i <= |cs| && d == cs[..i];
      assert ds[..i] == cs[..i];
    }
    assert ds[..|ds|] == ds;
  }

  lemma {:induction false} PrefixesInClosed(fs: Tree, cs: seq<string>)
    requires PrefixClosed(fs) && cs in fs
    ensures Prefixes(cs) <= fs
  {
    if |cs| > 0 {
      var init := cs[..|cs| - 1];
      PrefixesInClosed(fs, init);
      PrefixesSnoc(init, cs[|cs| - 1]);
      assert init + [cs[|cs| - 1]] == cs;
    }
  }

  lemma PrefixClosedUnion(fs: Tree, cs: seq<string>)
    requires PrefixClosed(fs)
    ensures PrefixClosed(fs + Prefixes(cs))
  {
    forall d | d in fs + Prefixes(cs) && |d| > 0 ensures d[..|d| - 1] in fs + Prefixes(cs) {
      if d !in fs {
        var i :| 1 <= i <= |cs| && d == cs[..i];
        if i > 1 {
          assert d[..|d| - 1] == cs[..i - 1];
        }
      }
    }
  }

  lemma {:induction false} ComponentsOf(p: seq<string>, c: string)
    requires c in Components(p)
    ensures c in p && c != ""
  {
    if |p| > 0 {
      var init := p[..|p| - 1];
      if c in Components(init) {
        ComponentsOf(init, c);
      }
    }
  }

  /** makedirs once the head is known to exist: just the leaf's mkdir. */
  lemma MakeDirsHeadExists(fs: Tree, start: Place, p: seq<string>)
    requires |p| > 0
    requires var (h, t) := HeadTail(p); |h| > 0 && t != "" && Exists(fs, start, h) == Some(true)
    ensures MakeDirs(fs, start, p) == Mkdir(fs, start, p)
  {
  }

  /** makedirs of a missing head that was made, or whose FileExistsError was ignored: the leaf's mkdir. */
  lemma MakeDirsAfterHead(fs: Tree, start: Place, p: seq<string>, fs1: Tree)
    requires |p| > 0
    requires var (h, t) := HeadTail(p);
      && |h| > 0 && t != "" && t != "." && Exists(fs, start, h) == Some(false)
      && (MakeDirs(fs, start, h) == Done(fs1) || MakeDirs(fs, start, h) == Raised(FileExists, fs1))
    ensures MakeDirs(fs, start, p) == Mkdir(fs1, start, p)
  {
  }

  /** makedirs of a path ending in "." whose head had to be made returns right after the head. */
  lemma MakeDirsDotAfterHead(fs: Tree, start: Place, p: seq<string>, fs1: Tree)
    requires |p| > 0
    requires var (h, t) := HeadTail(p);
      && |h| > 0 && t == "." && Exists(fs, start, h) == Some(false)
      && (MakeDirs(fs, start, h) == Done(fs1) || MakeDirs(fs, start, h) == Raised(FileExists, fs1))
    ensures MakeDirs(fs, start, p) == Done(fs1)
  {
  }

  /** mkdir of a new plain leaf below an existing directory. */
  lemma MkdirPlainLeaf(fs: Tree, p: seq<string>, ch: seq<string>, t: string)
    requires Components(p) == ch + [t] && t != "." && t != ".."
    requires Walk(fs, Inside([]), ch) == Found(Inside(ch)) && ch + [t] !in fs
    ensures Mkdir(fs, Inside([]), p) == Done(fs + {ch + [t]})
  {
    var cs := Components(p);
    assert cs[..|cs| - 1] == ch;
  }

  /** The head of a plain path already exists: only the leaf is made. */
  lemma PlainHeadExists(fs: Tree, p: seq<string>, ch: seq<string>, t: string)
    requires |p| > 0 && PrefixClosed(fs) && Plain(ch) && t != "" && t != "." && t != ".."
    requires var (h, t') := HeadTail(p); |h| > 0 && t' == t && Components(h) == ch
    requires Components(p) == ch + [t] && ch in fs && ch + [t] !in fs
    ensures MakeDirs(fs, Inside([]), p) == Done(fs + Prefixes(ch + [t]))
  {
    PlainWalk(fs, ch);
    MakeDirsHeadExists(fs, Inside([]), p);
    MkdirPlainLeaf(fs, p, ch, t);
    PrefixesInClosed(fs, ch);
    PrefixesSnoc(ch, t);
  }

  /** Once the directories along the head are added, the leaf's mkdir makes it. */
  lemma PlainLeafAfterHead(fs: Tree, p: seq<string>, ch: seq<string>, t: string)
    requires PrefixClosed(fs) && Plain(ch) && |ch| > 0 && t != "" && t != "." && t != ".."
    requires Components(p) == ch + [t] && ch + [t] !in fs
    ensures Mkdir(fs + Prefixes(ch), Inside([]), p) == Done(fs + Prefixes(ch + [t]))
  {
    MadeHeadWalk(fs, ch, t);
    MkdirPlainLeaf(fs + Prefixes(ch), p, ch, t);
    PrefixesSnoc(ch, t);
  }

  /** After the directories along ch are added, the lookup of ch finds it and ch + [t] is still new. */
  lemma MadeHeadWalk(fs: Tree, ch: seq<string>, t: string)
    requires PrefixClosed(fs) && Plain(ch) && |ch| > 0 && ch + [t] !in fs
    ensures Walk(fs + Prefixes(ch), Inside([]), ch) == Found(Inside(ch))
    ensures ch + [t] !in fs + Prefixes(ch)
  {
    PrefixClosedUnion(fs, ch);
    assert ch == ch[..|ch|];
    PlainWalk(fs + Prefixes(ch), ch);
    assert forall d :: d in Prefixes(ch) ==> |d| <= |ch|;
  }

  /** A single plain name below the starting directory. */
  lemma PlainNoHead(fs: Tree, p: seq<string>, t: string)
    requires |p| > 0 && t != "" && t != "." && t != ".."
    requires HeadTail(p) == ([], t) && Components(p) == [t] && [] in fs && [t] !in fs
    ensures MakeDirs(fs, Inside([]), p) == Done(fs + Prefixes([t]))
  {
    assert [] + [t] == [t];
    MkdirPlainLeaf(fs, p, [], t);
    PrefixesSnoc([], t);
  }

  /**
   * A path of plain names that does not exist yet is made in full: exactly
   * the directories along it are added.
   */
  lemma {:induction false} PlainMakeDirs(fs: Tree, p: seq<string>)
    requires |p| > 0 && PrefixClosed(fs) && Plain(Components(p))
    requires |Components(p)| > 0 && Components(p) !in fs
    ensures MakeDirs(fs, Inside([]), p) == Done(fs + Prefixes(Components(p)))
    decreases |p|
  {
    var (h, t) := HeadTail(p);
    var cs := Components(p);
    var ch := Components(h);
    assert cs == ch + [t] && cs[|cs| - 1] == t;
    assert Plain(ch) by {
      forall i | 0 <= i < |ch| ensures ch[i] != "." && ch[i] != ".." {
        assert ch[i] == cs[i];
      }
    }
    if |h| > 0 {
      assert |ch| > 0 by {
        assert Components(h) == Components(h[..|h| - 1]) + [h[|h| - 1]];
      }
      if ch in fs {
        PlainHeadExists(fs, p, ch, t);
      } else {
        PlainMakeDirs(fs, h);
        PlainWalk(fs, ch);
        MakeDirsAfterHead(fs, Inside([]), p, fs + Prefixes(ch));
        PlainLeafAfterHead(fs, p, ch, t);
      }
    } else {
      PlainNoHead(fs, p, t);
    }
  }

  // ---- Kit codes ----

  /**
   * A relative kit code none of whose segments is "." or ".." is staged,
   * and exactly the directories along it are made.
   */
  lemma PlainCodeStages(code: string)
    requires |code| > 0 && code[0] != '/' && Plain(Segments(code))
    ensures !StagingFails(code)
    ensures Stage(code) == Done(Fresh + Prefixes(Components(Segments(code))))
  {
    var p := Segments(code);
    var cs := Components(p);
    assert p[0] != "" by {
      if '/' in code {
        assert p[0] == code[..FirstSlash(code)];
      }
    }
    ComponentsNonEmpty(p, 0);
    forall i | 0 <= i < |cs| ensures cs[i] != "." && cs[i] != ".." {
      ComponentsOf(p, cs[i]);
    }
    PlainMakeDirs(Fresh, p);
  }

  lemma {:induction false} ComponentsNonEmpty(p: seq<string>, i: nat)
    requires i < |p| && p[i] != ""
    ensures |Components(p)| > 0
  {
    if i < |p| - 1 {
      ComponentsNonEmpty(p[..|p| - 1], i);
    }
  }

  /** A path whose last component is ".." never yields a new directory: makedirs cannot succeed. */
  lemma TrailingParentNeverStages(fs: Tree, start: Place, p: seq<string>)
    requires |p| > 0 && |Components(p)| > 0 && Components(p)[|Components(p)| - 1] == ".."
    ensures !MakeDirs(fs, start, p).Done?
  {
    var (h, t) := HeadTail(p);
    assert t == "..";
  }

  /** Segments without empty pieces are their own components. */
  lemma {:induction false} ComponentsOfFull(p: seq<string>)
    requires forall i :: 0 <= i < |p| ==> p[i] != ""
    ensures Components(p) == p
  {
    if |p| > 0 {
      ComponentsOfFull(p[..|p| - 1]);
    }
  }

  /** Without a trailing slash, the head is everything before the last segment. */
  lemma HeadTailPlain(p: seq<string>)
    requires |p| > 0 && p[|p| - 1] != "" && (|p| == 1 || p[|p| - 2] != "")
    ensures HeadTail(p) == (p[..|p| - 1], p[|p| - 1])
  {
  }

  /** A kit code that stages is never empty. */
  lemma StagedCodeNonEmpty(code: string)
    requires !StagingFails(code)
    ensures code != ""
  {
    if code == "" {
      EmptyCodeFails();
    }
  }

  lemma EmptyCodeFails()
    ensures StagingFails("")
  {
    assert Segments("") == [""];
    assert Components([""]) == [];
  }

  /** A single dot or dot-dot, with or without a trailing slash, names a directory that exists. */
  lemma DotCodesFail(code: string, c: string)
    requires c == "." || c == ".."
    requires code == c || code == c + "/"
    ensures StagingFails(code)
  {
    var p := Segments(code);
    if code == c {
      assert p == [c];
      HeadTailPlain(p);
      ComponentsOfFull(p);
    } else {
      TwoSegments(c, "");
      assert code == c + "/" + "";
      assert p[..1] == [c] && TrimEmpty(p[..1]) == [c];
      assert HeadTail(p) == ([], c);
      assert Components(p) == Components([c]) by {
        assert p[..1] == [c];
      }
      ComponentsOfFull([c]);
    }
  }

  /**
   * "./." and "../.": the head exists, and mkdir of a final "." in it finds
   * that directory already there.
   */
  lemma DotSlashDotFails(code: string, c: string)
    requires c == "." || c == ".."
    requires code == c + "/."
    ensures StagingFails(code)
  {
    assert code == c + "/" + "." && code[0] == '.';
    TwoSegments(c, ".");
    StageRelative(code, [c, "."]);
    DotThenDotPath(c);
  }

  lemma DotThenDotPath(c: string)
    requires c == "." || c == ".."
    ensures MakeDirs(Fresh, Inside([]), [c, "."]).Raised?
  {
    var p := [c, "."];
    HeadTailPlain(p);
    assert p[..1] == [c];
    ComponentsOfFull([c]);
    ComponentsOfFull(p);
    assert Walk(Fresh, Inside([]), [c]).Found?;
    MakeDirsHeadExists(Fresh, Inside([]), p);
  }

  lemma SegmentsCons(a: string, rest: string)
    requires '/' !in a
    ensures Segments(a + "/" + rest) == [a] + Segments(rest)
  {
    var s := a + "/" + rest;
    FirstSlashAfter(a, rest);
    assert s[..|a|] == a && s[|a| + 1..] == rest;
  }

  lemma TwoSegments(a: string, b: string)
    requires '/' !in a && '/' !in b
    ensures Segments(a + "/" + b) == [a, b]
  {
    SegmentsCons(a, b);
  }

  lemma ThreeSegments(a: string, b: string, c: string)
    requires '/' !in a && '/' !in b && '/' !in c
    ensures Segments(a + "/" + b + "/" + c) == [a, b, c]
  {
    assert a + "/" + b + "/" + c == a + "/" + (b + "/" + c);
    SegmentsCons(a, b + "/" + c);
    TwoSegments(b, c);
  }

  /** A relative code is staged by makedirs of its segments, starting in the staging directory. */
  lemma StageRelative(code: string, p: seq<string>)
    requires |code| > 0 && code[0] != '/' && Segments(code) == p
    ensures Stage(code) == MakeDirs(Fresh, Inside([]), p)
  {
  }

  /** A name that is one plain path segment. */
  predicate SimpleName(n: string) {
    n != "" && n != "." && n != ".." && '/' !in n
  }

  /** makedirs of "n/..": n is made, then mkdir of "n/.." raises FileExistsError. */
  lemma MadeThenParent(n: string)
    requires SimpleName(n)
    ensures Exists(Fresh, Inside([]), [n, ".."]) == Some(false)
    ensures MakeDirs(Fresh, Inside([]), [n, ".."]) == Raised(FileExists, Fresh + {[n]})
  {
    var p := [n, ".."];
    HeadTailPlain(p);
    HeadTailPlain([n]);
    assert p[..1] == [n];
    ComponentsOfFull([n]);
    ComponentsOfFull(p);
    assert Walk(Fresh, Inside([]), [n]) == Missing;
    assert MakeDirs(Fresh, Inside([]), [n]) == Done(Fresh + {[n]});
    assert Walk(Fresh + {[n]}, Inside([]), [n]) == Found(Inside([n]));
  }

  /** "n/..": after making n, its parent is the staging directory, which exists. */
  lemma ChildParentFails(n: string)
    requires SimpleName(n)
    ensures StagingFails(n + "/..")
  {
    var code := n + "/..";
    assert code == n + "/" + ".." && code[0] == n[0];
    TwoSegments(n, "..");
    StageRelative(code, [n, ".."]);
    MadeThenParent(n);
  }

  /** "n/m/..": n and m are made, then mkdir of their parent raises FileExistsError. */
  lemma GrandchildParentFails(n: string, m: string)
    requires SimpleName(n) && SimpleName(m)
    ensures StagingFails(n + "/" + m + "/..")
  {
    var code := n + "/" + m + "/..";
    assert code == n + "/" + m + "/" + ".." && code[0] == n[0];
    ThreeSegments(n, m, "..");
    StageRelative(code, [n, m, ".."]);
    GrandchildParentPath(n, m);
  }

  lemma GrandchildParentPath(n: string, m: string)
    requires SimpleName(n) && SimpleName(m)
    ensures MakeDirs(Fresh, Inside([]), [n, m, ".."]).Raised?
  {
    var p := [n, m, ".."];
    HeadTailPlain(p);
    assert p[..2] == [n, m];
    MadeTwoNames(n, m);
    MakeDirsAfterHead(Fresh, Inside([]), p, Fresh + Prefixes([n, m]));
    ParentOfMadeTwoNames(n, m);
  }

  /** makedirs of "n/m" in the fresh directory makes both. */
  lemma MadeTwoNames(n: string, m: string)
    requires SimpleName(n) && SimpleName(m)
    ensures Exists(Fresh, Inside([]), [n, m]) == Some(false)
    ensures MakeDirs(Fresh, Inside([]), [n, m]) == Done(Fresh + Prefixes([n, m]))
  {
    var ch := [n, m];
    ComponentsOfFull(ch);
    assert Plain(ch);
    PlainWalk(Fresh, ch);
    PlainMakeDirs(Fresh, ch);
  }

  /** Once "n/m" is made, mkdir of "n/m/.." finds the directory n. */
  lemma ParentOfMadeTwoNames(n: string, m: string)
    requires SimpleName(n) && SimpleName(m)
    ensures Mkdir(Fresh + Prefixes([n, m]), Inside([]), [n, m, ".."]).Raised?
  {
    var p := [n, m, ".."];
    ComponentsOfFull(p);
    assert p[..2] == [n, m];
    MadeHeadWalk(Fresh, [n, m], "..");
  }

  /** "n/.": makedirs makes n and returns on the tail ".". */
  lemma ChildDotStages(n: string)
    requires SimpleName(n)
    ensures Stage(n + "/.") == Done(Fresh + {[n]})
  {
    var code := n + "/.";
    assert code == n + "/" + "." && code[0] == n[0];
    TwoSegments(n, ".");
    StageRelative(code, [n, "."]);
    ChildDotPath(n);
  }

  lemma ChildDotPath(n: string)
    requires SimpleName(n)
    ensures MakeDirs(Fresh, Inside([]), [n, "."]) == Done(Fresh + {[n]})
  {
    var p := [n, "."];
    HeadTailPlain(p);
    HeadTailPlain([n]);
    assert p[..1] == [n];
    ComponentsOfFull([n]);
    assert Walk(Fresh, Inside([]), [n]) == Missing;
    assert MakeDirs(Fresh, Inside([]), [n]) == Done(Fresh + {[n]});
    MakeDirsDotAfterHead(Fresh, Inside([]), p, Fresh + {[n]});
  }

  /** "n/../.": the FileExistsError of the head "n/.." is ignored and the tail "." returns. */
  lemma ChildParentDotStages(n: string)
    requires SimpleName(n)
    ensures Stage(n + "/../.") == Done(Fresh + {[n]})
  {
    var code := n + "/../.";
    assert code == n + "/" + ".." + "/" + "." && code[0] == n[0];
    ThreeSegments(n, "..", ".");
    StageRelative(code, [n, "..", "."]);
    ChildParentDotPath(n);
  }

  lemma ChildParentDotPath(n: string)
    requires SimpleName(n)
    ensures MakeDirs(Fresh, Inside([]), [n, "..", "."]) == Done(Fresh + {[n]})
  {
    var p := [n, "..", "."];
    HeadTailPlain(p);
    assert p[..2] == [n, ".."];
    MadeThenParent(n);
    MakeDirsDotAfterHead(Fresh, Inside([]), p, Fresh + {[n]});
  }

  /**
   * "n/../m": the head's FileExistsError is ignored and m is made in the
   * staging directory, unless m is n, which the head has just made.
   */
  lemma ChildParentSiblingStages(n: string, m: string)
    requires SimpleName(n) && SimpleName(m)
    ensures n != m ==> Stage(n + "/../" + m) == Done(Fresh + {[n], [m]})
    ensures n == m ==> StagingFails(n + "/../" + m)
  {
    var code := n + "/../" + m;
    assert code == n + "/" + ".." + "/" + m && code[0] == n[0];
    ThreeSegments(n, "..", m);
    StageRelative(code, [n, "..", m]);
    ChildParentSiblingPath(n, m);
  }

  lemma ChildParentSiblingPath(n: string, m: string)
    requires SimpleName(n) && SimpleName(m)
    ensures MakeDirs(Fresh, Inside([]), [n, "..", m])
      == if n != m then Done(Fresh + {[n], [m]}) else Raised(FileExists, Fresh + {[n]})
  {
    var p := [n, "..", m];
    var fs1 := Fresh + {[n]};
    HeadTailPlain(p);
    assert p[..2] == [n, ".."];
    MadeThenParent(n);
    MakeDirsAfterHead(Fresh, Inside([]), p, fs1);
    SiblingMkdir(n, m);
  }

  lemma SiblingMkdir(n: string, m: string)
    requires SimpleName(n) && SimpleName(m)
    ensures Mkdir(Fresh + {[n]}, Inside([]), [n, "..", m])
      == if n != m then Done(Fresh + {[n], [m]}) else Raised(FileExists, Fresh + {[n]})
  {
    var p := [n, "..", m];
    ComponentsOfFull(p);
    assert p[..2] == [n, ".."];
    MadeNameParentWalk(n);
    assert [] + [m] == [m];
  }

  /** Once n is made, the lookup of "n/.." comes back to the staging directory. */
  lemma MadeNameParentWalk(n: string)
    requires SimpleName(n)
    ensures Walk(Fresh + {[n]}, Inside([]), [n, ".."]) == Found(Inside([]))
  {
    var fs1 := Fresh + {[n]};
    assert [n, ".."][..1] == [n] && [n][..0] == [];
    assert [] + [n] == [n];
    assert Walk(fs1, Inside([]), [n]) == Found(Inside([n]));
  }

  /** "../n": whether n exists beside the temporary directory decides. */
  lemma ClimbingCodeUndetermined(n: string)
    requires SimpleName(n)
    ensures Stage("../" + n).Undetermined?
  {
    var code := "../" + n;
    assert code == ".." + "/" + n && code[0] == '.';
    TwoSegments("..", n);
    StageRelative(code, ["..", n]);
    ClimbingPath(n);
  }

  lemma ClimbingPath(n: string)
    requires SimpleName(n)
    ensures MakeDirs(Fresh, Inside([]), ["..", n]).Undetermined?
  {
    var p := ["..", n];
    HeadTailPlain(p);
    assert p[..1] == [".."];
    ComponentsOfFull([".."]);
    ComponentsOfFull(p);
    assert Walk(Fresh, Inside([]), [".."]) == Found(Above);
    MakeDirsHeadExists(Fresh, Inside([]), p);
  }

  /**
   * For any plain names n and m: "n/.." and "n/m/.." resolve to existing
   * directories once their heads are made, and fail. Codes ending in "."
   * after a head that had to be made ("n/.", "n/../.") succeed, because
   * makedirs returns right after making the head. "n/../m" makes n and then
   * m, so it fails only when m is n, and "../n" depends on what exists
   * beside the temporary directory.
   */
  lemma NamedCodeExamples(n: string, m: string)
    requires SimpleName(n) && SimpleName(m)
    ensures StagingFails(n + "/..") && StagingFails(n + "/" + m + "/..")
    ensures Stage(n + "/.").Done? && Stage(n + "/../.").Done?
    ensures Stage(n + "/../" + m).Done? <==> n != m
    ensures Stage("../" + n).Undetermined?
  {
    ChildParentFails(n);
    GrandchildParentFails(n, m);
    ChildDotStages(n);
    ChildParentDotStages(n);
    ChildParentSiblingStages(n, m);
    ClimbingCodeUndetermined(n);
  }
}

=== FILE: timeline.dfy ===
/**
 * The timeline allocator: where in the master recording each layer's take
 * lies. Every instrument's takes are spaced by its sample length rounded up
 * to a multiple of 250 ms, and the instruments follow one another.
 */
module Timeline {
  import opened KitConfig

  const SlotMs := 250

  /** `math.ceil(length / 250)`: the number of 250 ms slots one take occupies. */
  function Eighths(lengthMs: int): (q: int)
    ensures SlotMs * (q - 1) < lengthMs <= SlotMs * q
  {
    -((-lengthMs) / SlotMs)
  }

  /** `ceil(length / 250) * 250`: the least multiple of 250 that is at least `lengthMs`. */
  function NoteLength(lengthMs: int): (r: int)
    ensures r % SlotMs == 0
    ensures lengthMs <= r < lengthMs + SlotMs
  {
    Eighths(lengthMs) * SlotMs
  }

  /** The stretch of the master recording one instrument's layers take up. */
  function Footprint(ins: InstrumentSpec): int {
    NoteLength(ins.lengthMs) * |ins.layers|
  }

  /** The left fold that threads the running offset through the instruments. */
  function OffsetsFrom(instrs: seq<InstrumentSpec>, start: int): (offs: seq<int>)
    ensures |offs| == |instrs|
    ensures |offs| > 0 ==> offs[0] == start
    ensures forall k :: 0 <= k < |offs| - 1 ==> offs[k + 1] == offs[k] + Footprint(instrs[k])
  {
    if |instrs| == 0 then []
    else [start] + OffsetsFrom(instrs[1..], start + Footprint(instrs[0]))
  }

  /**
   * The base offset of every instrument: 0 for the first, and each next one
   * advanced by the footprint of the one before.
   */
  function BaseOffsets(instrs: seq<InstrumentSpec>): (offs: seq<int>)
    ensures |offs| == |instrs|
    ensures |offs| > 0 ==> offs[0] == 0
    ensures forall k :: 0 <= k < |offs| - 1 ==> offs[k + 1] == offs[k] + Footprint(instrs[k])
  {
    OffsetsFrom(instrs, 0)
  }

  /** The footprints of all given instruments added up. */
  function TotalFootprint(instrs: seq<InstrumentSpec>): int {
    if |instrs| == 0 then 0
    else TotalFootprint(instrs[..|instrs| - 1]) + Footprint(instrs[|instrs| - 1])
  }

  /** Instrument k's base offset is the total footprint of the instruments before it. */
  lemma {:induction false} BaseOffsetIsPrefixSum(instrs: seq<InstrumentSpec>, k: nat)
    requires k < |instrs|
    ensures BaseOffsets(instrs)[k] == TotalFootprint(instrs[..k])
  {
    if k > 0 {
      BaseOffsetIsPrefixSum(instrs, k - 1);
      assert instrs[..k][..k - 1] == instrs[..k - 1];
    }
  }

  predicate NonNegativeLengths(instrs: seq<InstrumentSpec>) {
    forall k :: 0 <= k < |instrs| ==> instrs[k].lengthMs >= 0
  }

  lemma MulNonNegative(a: int, b: int)
    requires a >= 0 && b >= 0
    ensures a * b >= 0
  {
  }

  /** With non-negative sample lengths the base offsets never decrease. */
  lemma {:induction false} BaseOffsetsNondecreasing(instrs: seq<InstrumentSpec>, j: nat, k: nat)
    requires NonNegativeLengths(instrs) && j <= k < |instrs|
    ensures BaseOffsets(instrs)[j] <= BaseOffsets(instrs)[k]
  {
    if j < k {
      BaseOffsetsNondecreasing(instrs, j, k - 1);
      MulNonNegative(NoteLength(instrs[k - 1].lengthMs), |instrs[k - 1].layers|);
    }
  }

  /**
   * With non-negative sample lengths the next instrument starts strictly
   * later exactly when this one has a positive length and at least one layer.
   */
  lemma BaseOffsetAdvances(instrs: seq<InstrumentSpec>, k: nat)
    requires NonNegativeLengths(instrs) && k + 1 < |instrs|
    ensures BaseOffsets(instrs)[k] < BaseOffsets(instrs)[k + 1]
      <==> instrs[k].lengthMs > 0 && |instrs[k].layers| > 0
  {
    var nl := NoteLength(instrs[k].lengthMs);
    var n := |instrs[k].layers|;
    assert instrs[k].lengthMs == 0 ==> nl == 0;
    if nl > 0 && n > 0 {
      assert nl * n >= nl * 1;
    }
  }

  /** `start_offset + note_length * idx`: where layer `idx` of an instrument starts. */
  function LayerStart(ins: InstrumentSpec, base: int, idx: nat): int {
    base + NoteLength(ins.lengthMs) * idx
  }

  lemma MulMonotone(a: int, b: int, c: int)
    requires a >= 0 && b <= c
    ensures a * b <= a * c
  {
    assert a * c - a * b == a * (c - b);
    MulNonNegative(a, c - b);
  }

  /**
   * With a non-negative sample length, every layer's window [start, start +
   * length) lies inside the instrument's footprint, and an earlier layer's
   * window ends no later than a later layer's starts.
   */
  lemma LayerWindows(ins: InstrumentSpec, base: int, idx: nat, later: nat)
    requires ins.lengthMs >= 0 && idx < |ins.layers| && later < |ins.layers|
    ensures base <= LayerStart(ins, base, idx)
    ensures LayerStart(ins, base, idx) + ins.lengthMs <= base + Footprint(ins)
    ensures idx < later ==> LayerStart(ins, base, idx) + ins.lengthMs <= LayerStart(ins, base, later)
  {
    var nl := NoteLength(ins.lengthMs);
    MulNonNegative(nl, idx);
    MulMonotone(nl, idx + 1, |ins.layers|);
    if idx < later {
      MulMonotone(nl, idx + 1, later);
    }
  }
}

=== FILE: velocity_ranges.dfy ===
/**
 * The velocity-range calculator: each layer's threshold becomes the upper
 * bound `threshold/127` of its range, the previous layer's upper bound is
 * its lower bound, and the first layer starts at the literal text "0".
 */
module VelocityRanges {
  import opened Wrappers
  import opened Decimal

  /** A range bound: the literal "0" the first layer gets, or `threshold/127`. */
  datatype Bound = ZeroLiteral | OverMax(threshold: int)

  datatype Range = Range(min: Bound, max: Bound)

  const MaxVelocity := 127

  /** The number a bound stands for. */
  function Value(b: Bound): real {
    match b
    case ZeroLiteral => 0.0
    case OverMax(t) => t as real / MaxVelocity as real
  }

  /**
   * The ranges of one instrument's layers: one per threshold, the i-th
   * ending at threshold i over 127, the first starting at the literal "0"
   * and each later one starting where its predecessor ends.
   */
  function LayerRanges(thresholds: seq<int>): (r: seq<Range>)
    ensures |r| == |thresholds|
    ensures forall i :: 0 <= i < |r| ==> r[i].max == OverMax(thresholds[i])
    ensures |r| > 0 ==> r[0].min == ZeroLiteral
    ensures forall i :: 0 < i < |r| ==> r[i].min == r[i - 1].max
  {
    var maxima := seq(|thresholds|, i requires 0 <= i < |thresholds| => OverMax(thresholds[i]));
    var minima := ([ZeroLiteral] + maxima)[..|maxima|];
    seq(|maxima|, i requires 0 <= i < |maxima| => Range(minima[i], maxima[i]))
  }

  predicate Ascending(thresholds: seq<int>) {
    forall i, j :: 0 <= i < j < |thresholds| ==> thresholds[i] <= thresholds[j]
  }

  /** A velocity `x` (a fraction of full scale) selects a layer when min <= x < max. */
  predicate Selects(r: Range, x: real) {
    Value(r.min) <= x < Value(r.max)
  }

  /**
   * For ascending, non-negative thresholds the ranges partition
   * [0, last/127): a velocity in that interval selects exactly one layer,
   * and a velocity outside it selects none.
   */
  lemma RangesPartition(thresholds: seq<int>, x: real)
    requires |thresholds| > 0 && Ascending(thresholds) && thresholds[0] >= 0
    ensures (exists i :: 0 <= i < |thresholds| && Selects(LayerRanges(thresholds)[i], x))
      <==> 0.0 <= x < Value(OverMax(thresholds[|thresholds| - 1]))
    ensures forall i, j ::
      (0 <= i < |thresholds| && 0 <= j < |thresholds|
       && Selects(LayerRanges(thresholds)[i], x) && Selects(LayerRanges(thresholds)[j], x)) ==> i == j
  {
    var r := LayerRanges(thresholds);
    var n := |thresholds|;
    forall i | 0 <= i < n ensures 0.0 <= Value(r[i].min) && Value(r[i].max) <= Value(OverMax(thresholds[n - 1])) {
      if i > 0 {
        assert Value(r[i].min) == thresholds[i - 1] as real / 127.0;
      }
    }
    if 0.0 <= x < Value(OverMax(thresholds[n - 1])) {
      var i := 0;
      while Value(r[i].max) <= x
        invariant 0 <= i < n
        invariant Value(r[i].min) <= x
        decreases n - i
      {
        i := i + 1;
      }
      assert Selects(r[i], x);
    }
    forall i, j | 0 <= i < j < n && Selects(r[i], x) ensures !Selects(r[j], x) {
      assert Value(r[j].min) == thresholds[j - 1] as real / 127.0;
    }
  }

  /** `threshold/127` in millionths, rounded to the nearest integer (there are never ties). */
  function RoundedMicros(t: nat): (q: nat)
    ensures -127 < 254 * q - 2 * t * 1000000 < 127
  {
    var m := t * 1000000;
    var n := 2 * m + 127;
    var q := n / 254;
    assert n == 254 * q + n % 254;
    // the remainder is odd, so it is never 0
    assert n % 254 == 2 * (m - 127 * q) + 127;
    q
  }

  /** The text of a signed decimal with six fraction digits. */
  function FixedText(negative: bool, whole: nat, fraction: nat): string {
    (if negative then "-" else "") + NatToString(whole) + "." + ZeroPad(fraction, 6)
  }

  lemma FixedTextReads(negative: bool, whole: nat, fraction: nat)
    requires fraction < 1000000
    ensures FixedMicros(FixedText(negative, whole, fraction))
      == Some(if negative then 0 - Micros(whole, fraction) else Micros(whole, fraction))
  {
    var w := NatToString(whole);
    var sign := if negative then "-" else "";
    NatToStringShort(fraction, 6);
    FixedShape(sign + w, ZeroPad(fraction, 6));
    if negative {
      assert (sign + w)[1..] == w;
      assert (sign + w)[0] == '-';
    } else {
      assert sign + w == w;
      assert IsDigit(w[0]);
    }
  }

  /** Where the point, the fraction and the whole part sit in `whole + "." + fraction`. */
  lemma FixedShape(whole: string, fraction: string)
    requires |fraction| == 6
    ensures var s := whole + "." + fraction;
      |s| == |whole| + 7 && s[|s| - 7] == '.' && s[|s| - 6..] == fraction && s[..|s| - 7] == whole
  {
    var s := whole + "." + fraction;
    assert s[|s| - 6..] == fraction;
    assert s[..|s| - 7] == whole;
  }

  /** `f"{threshold / 127:.6f}"`: the six-decimal number nearest to threshold/127. */
  function Fixed6(t: int): (s: string)
    ensures FixedMicros(s).Some?
    ensures -127 < 254 * FixedMicros(s).value - 2 * t * 1000000 < 127
  {
    var q := RoundedMicros(if t < 0 then -t else t);
    FixedTextReads(t < 0, q / 1000000, q % 1000000);
    assert q == Micros(q / 1000000, q % 1000000);
    FixedText(t < 0, q / 1000000, q % 1000000)
  }

  function Micros(whole: nat, fraction: nat): nat {
    whole * 1000000 + fraction
  }

  /** Reads a decimal with exactly six fraction digits, as a whole number of millionths. */
  function FixedMicros(s: string): Option<int> {
    if |s| < 8 || s[|s| - 7] != '.' || !AllDigits(s[|s| - 6..]) then None
    else
      var whole := s[..|s| - 7];
      var fraction := ParseDigits(s[|s| - 6..]);
      if |whole| >= 2 && whole[0] == '-' && AllDigits(whole[1..]) then
        Some(0 - Micros(ParseDigits(whole[1..]), fraction))
      else if |whole| >= 1 && AllDigits(whole) then
        Some(Micros(ParseDigits(whole), fraction))
      else None
  }

  /** The text of a bound in the manifest. */
  function BoundText(b: Bound): string {
    match b
    case ZeroLiteral => "0"
    case OverMax(t) => Fixed6(t)
  }

  /**
   * The first layer's lower bound is written "0" while a zero threshold is
   * written "0.000000": the same value with two different texts.
   */
  lemma ZeroLiteralQuirk()
    ensures Value(ZeroLiteral) == Value(OverMax(0))
    ensures BoundText(ZeroLiteral) != BoundText(OverMax(0))
  {
    assert |BoundText(OverMax(0))| >= 8;
  }
}

=== FILE: wrappers.dfy ===
/** Failure-compatible wrappers shared by the whole model. */
module Wrappers {

  /** A value that may be absent, as a Python `None` or a missing mapping key. */
  datatype Option<+T> = None | Some(value: T) {

    /** The wrapped value, or `default` when absent (Python's `dict.get(key, default)`). */
    function GetOr(default: T): T {
      match this
      case Some(v) => v
      case None => default
    }
  }

  /** The outcome of an operation that the program can abort with an exception. */
  datatype Result<+R, +E> = Success(value: R) | Failure(error: E)
}
